=== FILE: README.md ===
# Portfolio site request rules, modelled in Dafny

A model of the rules inside a Next.js portfolio site with an admin area:
the request gate that runs before every route (a per-IP fixed-window rate
limiter, a stale-entry sweep, the `www.` redirect and the decision table
for protected paths), the media upload endpoint, the project listing and
creation endpoints, the featured-project selection, the add-project form's
list state and upload loop, the health check, the error-report log, the
session-cookie check, the fixed-credential quick login and the optimised
image component.

The database, the image CDN, the file system, the clock and the random
number generator are not modelled as code: their results are parameters
(`now`, `sweep`, `probeOk`, `findMany`, `count`, `createOk`, `byFeatured`,
`byNewest`, `backends`, `upload`, `parse`, `writeOk`, `file`, `suffix`), so every rule holds for whatever they return.

Files, one module each: `common.dfy` (Option, Result, truthiness, the
`Bearer` header comparison, distinctness, the order-keeping `Filter` that
JavaScript's `Array.prototype.filter` computes), `strings.dfy` (the JavaScript
string operations the code relies on), `middleware.dfy`, `upload.dfy`,
`projects.dfy`, `featured.dfy`, `addproject.dfy`, `health.dfy`,
`errorreport.dfy`, `session.dfy`, `fastlogin.dfy`, `optimizedimage.dfy`.

Where the source updates state in place the model does too:
`Middleware.RateLimiter` holds the limiter's map as a field that its
methods reassign, `OptimizedImage.ImageState` holds the component's three
state variables, and the loops of the stale-entry sweep, the upload
endpoint, the featured selection and the form's submit handler are methods
with loop invariants, each proved equal to a specification function about
which the lemmas are stated. The health check's assembly, the log append and
the health endpoint's answer are methods without loops whose postconditions
state the resulting list or response.

## Model

| member | source | states |
|---|---|---|
| Middleware.Admit | src/middleware.ts:57-77 | No entry, or a window that began strictly more than 60000 ms ago, gives `{count: 1, timestamp: now}` and admits; otherwise the count rises by one, the start stays, and the request passes iff the new count is at most 60 |
| Middleware.ReplayInsideWindow | src/middleware.ts:67-76 | Within one window the count grows by one per request (refused ones included), the start never moves, and request k passes iff the count it brings is at most 60 |
| Middleware.FirstSixtyPass | src/middleware.ts:59-76 | From a fresh IP, of requests all within 60000 ms of the first, exactly the first 60 pass |
| Middleware.RateLimiter.constructor | src/middleware.ts:52 | The limiter starts with an empty map |
| Middleware.RateLimiter.CheckRateLimit | src/middleware.ts:57-77 | The map changes only at the caller's IP, to the entry `Admit` gives, and the verdict is `Admit`'s; every other entry is untouched |
| Middleware.RateLimiter.SweepStale | src/middleware.ts:180-186 | Exactly the entries with `now - timestamp > 300000` are deleted, the rest kept unchanged |
| Middleware.RateLimiter.Handle | src/middleware.ts:148-294 | 429 iff the limiter refuses; otherwise the route decision applies, and an admitted API request that proceeds carries limit 60, remaining `60 - count` (always 0..59) and reset `timestamp + 60000` |
| Middleware.ClientIp | src/middleware.ts:153-157 | A truthy `request.ip` wins; else the text before the first comma of `x-forwarded-for` when that is non-empty; else a truthy `x-real-ip`; else `unknown`; never empty |
| Middleware.Route | src/middleware.ts:188-251 | `www.` hosts redirect; `/login` passes before any check; a path needing auth, outside the debug bypass and without the cookies, gets 401 on API paths and a `/login?callbackUrl=<path>` redirect elsewhere; everything else proceeds |
| Middleware.PublicListNotConsulted | src/middleware.ts:4-49 | `/admin-panel` is in the public list and still needs auth: the list is never read |
| Middleware.ProjectsWriteOnlyProtected | src/middleware.ts:208-225 | Under `/api/projects` auth is needed iff the method is POST, PUT, DELETE or PATCH |
| Upload.Validate | src/app/api/upload/route.ts:77-99 | A file is accepted as video or image iff its type is in that kind's allow-list (video decided first) and its size is at most 100 MiB or 20 MiB; each rejection names its reason |
| Upload.StorageFor | src/app/api/upload/route.ts:8-13 | The CDN is used iff its name, key and secret are set and the name is not `demo`, with the CDN uploader; otherwise the disk, with the clock, the random part and the writer |
| Upload.AllowListsByPrefix | src/app/api/upload/route.ts:16-31 | Every allowed video type starts with `video/` and every allowed image type with `image/` |
| Upload.VideoThumbnail | src/app/api/upload/route.ts:156-158 | The first `/upload/` gains the crop segment and `.jpg` is appended |
| Upload.LocalFileName | src/app/api/upload/route.ts:164-167 | Exactly the decimal timestamp, `_`, the random part and the original extension; so it starts with `<timestamp>_<random>` and ends with the extension |
| Upload.ProcessOne | src/app/api/upload/route.ts:75-200 | A rejected file fails with the validation error; a valid one on the CDN fails with the CDN's message or is stored with the asset's id, URL, size, non-zero dimensions and duration and a thumbnail iff a video; a valid one on disk fails with the write error or is stored as `/uploads/<name>` with its own size and type |
| Upload.ProcessFiles | src/app/api/upload/route.ts:66-201 | One result per input file, in input order, each the outcome of that file alone |
| Upload.PartitionSizes | src/app/api/upload/route.ts:204-205 | The success and failure filters split the results as a multiset: every result lands in exactly one |
| Upload.PartitionFilters | src/app/api/upload/route.ts:204-205 | The success and failure lists are exactly the two `filter`s of the results, order and repeats kept |
| Upload.Warnings | src/app/api/upload/route.ts:229-231 | One `<name>: <error>` warning per failed file, in order |
| Upload.FilesToProcess | src/app/api/upload/route.ts:41-56 | A single `file` entry wins and `files` is then ignored |
| Upload.Respond | src/app/api/upload/route.ts:204-232 | No success: 400 with one detail per file; otherwise exactly the stored results in order with their count, and the warnings are absent when nothing failed and otherwise exactly one `<name>: <error>` per failure, in order |
| Upload.Post | src/app/api/upload/route.ts:33-245 | An unreadable form: 500; no file: 400; an unusable upload directory: 500; otherwise each file processed with the storage `StorageFor` picks, in order, and the response built from those results, naming CDN storage iff the CDN is configured |
| Projects.Take | src/app/api/projects/route.ts:144-147 | The parsed limit, or 12 without one |
| Projects.Skip | src/app/api/projects/route.ts:144-146 | `(page - 1) * take` with a page, else 0 |
| Projects.NextPageFollows | src/app/api/projects/route.ts:144-146 | Page p+1 starts exactly `take` rows after page p |
| Projects.PagesTile | src/app/api/projects/route.ts:144-147 | Pages 1 to n read in order are exactly the first `n * take` rows of the ordered result |
| Projects.TotalPages | src/app/api/projects/route.ts:256 | `ceil(total / take)`: the least page count covering all rows; no count when `take` is 0 |
| Projects.WhereOf | src/app/api/projects/route.ts:149-157 | A category filter iff the category is present and not `all`; the featured filter iff the parameter is `true` |
| Projects.NoFilterMatchesAll | src/app/api/projects/route.ts:149-157 | Without a category (or with `all`) and without `featured=true` the filter keeps the whole table, in order |
| Projects.OrderBy | src/app/api/projects/route.ts:160-176 | `newest`/`oldest` sort by creation date only (ascending only for `oldest`); `popular` by views, likes, date; anything else featured first, then date |
| Projects.FindManyOf | src/app/api/projects/route.ts:202-220 | The query sent to the database carries the request's filter, sort keys, skip and take |
| Projects.PrecedesTransitive | src/app/api/projects/route.ts:160-176 | The key order is transitive (PostgreSQL places null counts after every number) |
| Projects.SortBySorted | src/app/api/projects/route.ts:160-176 | Sorting by the keys yields a permutation of the rows that is ordered by the keys |
| Projects.Answer | src/app/api/projects/route.ts:202-220 | A database page holds `max(0, min(take, matching - skip))` rows, every one a table row passing the filter, in key order |
| Projects.FeaturedIsDefault | src/app/api/projects/route.ts:170-176 | An unknown or absent sort gives the same order as `featured` |
| Projects.Format | src/app/api/projects/route.ts:226-231 | Null views, likes and rating become 0; everything else is kept |
| Projects.FailureStatus | src/app/api/projects/route.ts:262-301 | 504 for a timeout message, 503 for a connection failure, 500 otherwise |
| Projects.List | src/app/api/projects/route.ts:135-258 | A failed probe is 503; a failed fetch or count maps through `FailureStatus`; otherwise the response holds exactly the fetched rows formatted in order, the counted total, the limit, the page and `TotalPages`, where the fetch is the query `FindManyOf` builds and the count uses the same filter |
| Projects.ListFromTable | src/app/api/projects/route.ts:135-258 | Over a table the database answers faithfully, the listing has `max(0, min(take, total - skip))` projects, each the formatted form of a matching row, and the page count covers the total |
| Projects.NormaliseItem | src/app/api/projects/route.ts:347-366 | `order` is the index, thumbnail defaults to `src`, title defaults to `ملف <index+1>` |
| Projects.NormaliseMedia | src/app/api/projects/route.ts:347-366 | Rejected iff some item has no `src`, naming the first; otherwise one record per item in order |
| Projects.Names | src/app/api/projects/route.ts:368-379 | A tag or material is stored under the string itself or its `.name` |
| Projects.Create | src/app/api/projects/route.ts:306-386 | 400 iff title, description, category or location is missing; a media item without `src` aborts the whole creation; otherwise the record with the required fields, date and featured flag as sent, duration and cost defaulting to empty, the client only when truthy, and the normalised media, tags and materials |
| Projects.Post | src/app/api/projects/route.ts:306-418 | A body that does not parse is 500; a well-formed creation the database fails to store is 500; otherwise `Create`'s outcome, 400 exactly when a required field is missing |
| Projects.OneMissingSrcAbortsAll | src/app/api/projects/route.ts:347-366 | One item without `src` anywhere makes the creation fail with 500 |
| Featured.EffectiveLimit | src/app/api/projects/featured/route.ts:9-12 | `min(parsed limit, 20)`, default 8 |
| Featured.Query | src/app/api/projects/featured/route.ts:17-57 | At most `take` rows, each from the table with the asked featured flag and an id not excluded; all such rows when fewer than `take` come back |
| Featured.QueryTakesFirst | src/app/api/projects/featured/route.ts:17-57 | The query answers exactly the first `take` rows that pass its filter, in table order (all of them when fewer pass) |
| Featured.QueryDistinct | src/app/api/projects/featured/route.ts:17-57 | A query over a table with unique ids returns unique ids |
| Featured.TopUp | src/app/api/projects/featured/route.ts:60-106 | Regular projects are appended only when featured ones are fewer than the limit, at most `limit - featured`, none featured or already present |
| Featured.CandidatesDistinct | src/app/api/projects/featured/route.ts:60-106 | The candidate list repeats no id and never exceeds the limit |
| Featured.Diversify | src/app/api/projects/featured/route.ts:109-129 | The two loops compute exactly `Select`: pass one's category representatives, then pass two's fill in order |
| Featured.PassOneIsReps | src/app/api/projects/featured/route.ts:113-121 | Pass one takes the first project of each new category in input order, cut at the limit |
| Featured.FillFacts | src/app/api/projects/featured/route.ts:124-129 | Pass two only appends, stops at the limit, takes only input projects and repeats no id |
| Featured.FillCovers | src/app/api/projects/featured/route.ts:124-129 | When pass two ends under the limit every input project's id was taken |
| Featured.SelectSize | src/app/api/projects/featured/route.ts:109-129 | With unique input ids the selection repeats no id and has `min(limit, input size)` projects, all from the input |
| Featured.CategoriesFirst | src/app/api/projects/featured/route.ts:113-129 | With at most `limit` categories every category appears and the representatives come before all other picks |
| Featured.Get | src/app/api/projects/featured/route.ts:5-162 | 500 when the featured query fails, or when the top-up query is needed and fails; otherwise the formatted selection over the candidates, with its count |
| Featured.ResponseSize | src/app/api/projects/featured/route.ts:9-129 | The response repeats no project and holds `min(limit, candidates)` ≤ 20 projects |
| AddProject.AddEntry | src/app/dashboard/projects/add/page.tsx:139-161 | The trimmed input is appended and the input cleared iff it is non-empty and new; otherwise nothing changes |
| AddProject.RemoveEntry | src/app/dashboard/projects/add/page.tsx:146-161 | The argument no longer occurs, every other entry still does, and a list without it is unchanged |
| AddProject.RemoveEntryFilters | src/app/dashboard/projects/add/page.tsx:146-161 | Removal is `filter(t => t !== x)`: the other entries in order, each as often as before, and the argument zero times |
| AddProject.RemoveEntryAppend | src/app/dashboard/projects/add/page.tsx:146-161 | Removing from a concatenation is concatenating the removals, so order is kept |
| AddProject.AddKeepsWellFormed | src/app/dashboard/projects/add/page.tsx:139-161 | Adding keeps a list free of blanks, repeats and untrimmed entries |
| AddProject.RemoveKeepsWellFormed | src/app/dashboard/projects/add/page.tsx:146-161 | Removing keeps a list well formed |
| AddProject.AddTwiceIsAddOnce | src/app/dashboard/projects/add/page.tsx:139-161 | Adding the same input twice is adding it once |
| AddProject.RemoveUndoesAdd | src/app/dashboard/projects/add/page.tsx:139-161 | Removing a just-added entry restores the list |
| AddProject.FromPicked | src/app/dashboard/projects/add/page.tsx:103-109 | Typed image iff the MIME type starts with `image/`; title is the name up to its first `.` |
| AddProject.AddPicked | src/app/dashboard/projects/add/page.tsx:98-113 | The picked files are appended in order after the existing entries |
| AddProject.RemoveMedia | src/app/dashboard/projects/add/page.tsx:121-129 | Entries with the id are gone, every other entry remains, and a list without the id is unchanged |
| AddProject.RemoveMediaFilters | src/app/dashboard/projects/add/page.tsx:121-129 | Removal is `filter(m => m.id !== id)`: the other entries in order, each as often as before |
| AddProject.RemoveMediaAppend | src/app/dashboard/projects/add/page.tsx:121-129 | Removing from a concatenation is concatenating the removals, so order is kept |
| AddProject.Retitle | src/app/dashboard/projects/add/page.tsx:131-137 | Only the title of the matching entries changes |
| AddProject.Check | src/app/dashboard/projects/add/page.tsx:275-310 | A file passes iff within 100 MiB (video) or 20 MiB (image) and in its kind's allow-list; an oversize file is refused as too large whatever its type, a too-large refusal means oversize, and a right-size file of a wrong type gets its kind's type error |
| AddProject.Attempt | src/app/dashboard/projects/add/page.tsx:275-315 | A failed check is that error and no upload counts; after a passed check a non-empty URL from the upload is the result, and no URL or an empty one is `NoUrl` |
| AddProject.Uploaded | src/app/dashboard/projects/add/page.tsx:321-330 | The pushed item: the URL, the video poster or the URL as thumbnail, the title or the file name, and the given order |
| AddProject.OrdersContiguous | src/app/dashboard/projects/add/page.tsx:321-330 | Uploaded items carry orders 0, 1, 2, … with no gaps, whatever failed between them |
| AddProject.AllRejectedNothingUploaded | src/app/dashboard/projects/add/page.tsx:275-315 | When every file fails its check nothing is uploaded |
| AddProject.StoppedStaysStopped | src/app/dashboard/projects/add/page.tsx:344-353 | Once the user declines to continue, later files change nothing |
| AddProject.SubmitForm | src/app/dashboard/projects/add/page.tsx:244-364 | Aborts before any upload if title, description or category is empty; the loop's result is `Run`'s; no project is created when the user stops or nothing uploaded |
| AddProject.SubmittedMediaAccepted | src/app/dashboard/projects/add/page.tsx:321-330 | The uploaded items always pass the project endpoint's media normalisation, keeping their `src` and order |
| Health.CheckCloudinary | src/app/api/health-check/route.ts:58-76 | Configured iff cloud name, key and secret are all non-empty |
| Health.Missing | src/app/api/health-check/route.ts:120-124 | A variable is listed iff it is required and not set; never more than the required list |
| Health.MissingFilters | src/app/api/health-check/route.ts:120-124 | The list is `filter(v => !process.env[v])` over the required names: order and count fixed |
| Health.FailedOfChecks | src/app/api/health-check/route.ts:137-148 | Some check failed iff the failed list is non-empty; the database is among the failed iff its check failed |
| Health.HealthChecks | src/app/api/health-check/route.ts:97-134 | Three checks named database, cloudinary, environment, each passing iff the database connected, the CDN is configured, no required variable is missing |
| Health.HealthReport | src/app/api/health-check/route.ts:136-160 | Unhealthy iff the database failed, healthy iff every check passes, degraded otherwise; the database outcome, CDN settings, memory, uptime and checks are carried over; version and environment fall back to `1.0.0` and `unknown` |
| Health.RunHealthChecks | src/app/api/health-check/route.ts:93-161 | The pushed checks and the failed-list status computation give exactly `HealthReport`: three checks in order, healthy iff all pass, unhealthy iff the database failed, degraded otherwise |
| Health.IsAdminNeedsToken | src/app/api/health-check/route.ts:167-170 | Without a configured token only development mode unlocks the details |
| Health.Redact | src/app/api/health-check/route.ts:176-180 | Anonymous production callers lose cloud name, memory and checks; all else is kept |
| Health.StatusCode | src/app/api/health-check/route.ts:183-188 | 503 iff unhealthy, else 200 |
| Health.Get | src/app/api/health-check/route.ts:164-195 | With the corrected admin test: 503 iff the database failed, else 200; the body is the full report, redacted exactly for anonymous production callers |
| Health.GetAsWritten | src/app/api/health-check/route.ts:164-195 | As written, admin being `Bearer ${HEALTH_CHECK_TOKEN}` or development: 503 iff the database failed, else 200; the body is the full report, redacted exactly for production callers the as-written test does not admit |
| Health.Respond | src/app/api/health-check/route.ts:172-195 | Given the admin verdict: the status code from the database check; the body is `Redact` of the full report, so only cloud name, memory and checks ever go missing |
| Health.UndefinedTokenUnlocks | src/app/api/health-check/route.ts:168-170 | As written, `Bearer undefined` unlocks the details in production when no token is set |
| ErrorReport.Prepare | src/app/api/error-report/route.ts:133-165 | 400 unless the content type contains `application/json`, 400 without message or timestamp; otherwise the id defaults to a generated one and the type to `frontend_error` |
| ErrorReport.SavedLog | src/app/api/error-report/route.ts:47-59 | The new entry is last, at most 1000 entries remain, they are the newest of the old log plus the new entry in order, and below the cap nothing old is dropped |
| ErrorReport.SaveReport | src/app/api/error-report/route.ts:47-59 | The push and the cut compute exactly `SavedLog`: the new entry appended last and only the newest 1000 kept, in order; nothing is dropped below the cap |
| ErrorReport.CriticalIgnoresCase | src/app/api/error-report/route.ts:193-201 | The keyword test is blind to ASCII letter case |
| ErrorReport.Post | src/app/api/error-report/route.ts:130-235 | A non-JSON content type is 400, an unparsable body 500, missing fields 400, a failed write 500; a saved log is the existing entries plus the new one, cut to the newest 1000 in order, and an alert is raised iff in production and critical |
| ErrorReport.Recent | src/app/api/error-report/route.ts:83-85 | An entry is listed iff it is in the log with a timestamp after the cut-off; never more than the log |
| ErrorReport.Critical | src/app/api/error-report/route.ts:285-290 | An entry is listed iff it is in the log with a critical message; never more than the log |
| ErrorReport.RecentFilters | src/app/api/error-report/route.ts:83-85 | The recent list is the order-keeping filter of the log, each entry counted as often as in the log |
| ErrorReport.CriticalFilters | src/app/api/error-report/route.ts:285-290 | The critical list is the order-keeping filter of the log, each entry counted as often as in the log |
| ErrorReport.RecentAppend | src/app/api/error-report/route.ts:83-85 | The recent entries of a longer log are those of its parts, concatenated, and their counts add |
| ErrorReport.HighRateStays | src/app/api/error-report/route.ts:83-89 | Appending entries never turns a high error rate low |
| ErrorReport.TallySumsToTotal | src/app/api/error-report/route.ts:293-300 | The per-message counts are keyed by the distinct messages and sum to the number of entries |
| ErrorReport.Summarize | src/app/api/error-report/route.ts:285-301 | `critical ≤ total`, `recent ≤ total`, and the counts are the tally |
| ErrorReport.Newest | src/app/api/error-report/route.ts:304 | The last 50 entries, or all of them |
| ErrorReport.GetReport | src/app/api/error-report/route.ts:239-316 | With the corrected token test: 401 iff not authorised, always 401 in production without a token; otherwise the answer `Answer` gives an authorised caller |
| ErrorReport.Answer | src/app/api/error-report/route.ts:248-316 | An authorised caller gets 500 iff the log is unreadable, an empty listing without a log file, and otherwise the newest 50 entries with the summary of the whole log |
| ErrorReport.GetReportAsWritten | src/app/api/error-report/route.ts:239-316 | As written: 401 iff the as-written token test fails, `Bearer undefined` with no token set is answered like an authorised caller, and every other admitted caller gets `Answer`'s listing |
| ErrorReport.UndefinedTokenReadsLog | src/app/api/error-report/route.ts:243-245 | As written, `Bearer undefined` reads the log in production when no token is set |
| Session.Check | src/app/api/auth/check-session/route.ts:13-73 | No cookie, an unparsable one, or one without id or name is refused; expired iff more than 24 h passed; otherwise id, name and the rounded hours left |
| Session.RoundDiv | src/app/api/auth/check-session/route.ts:60 | `Math.round` of the quotient: nearest integer, halves up |
| Session.StatusCode | src/app/api/auth/check-session/route.ts:13-73 | 200 iff valid, else 401 |
| Session.ExactlyOneDayIsValid | src/app/api/auth/check-session/route.ts:38 | A session exactly 24 hours old is still valid, with 0 hours left |
| Session.UnreadableLoginNeverExpires | src/app/api/auth/check-session/route.ts:33-38 | A missing or unreadable login time never expires |
| Session.RemainingHoursInRange | src/app/api/auth/check-session/route.ts:51-62 | A valid past session has between 0 and 24 hours left |
| FastLogin.Login | src/app/api/fast-login/route.ts:18-45 | Missing iff a field is empty; success iff the trimmed, lower-cased name is `admin` and the password is exactly `admin123`, with the fixed id, name and email |
| FastLogin.Post | src/app/api/fast-login/route.ts:11-67 | An unreadable body is 500, every other answer 200 |
| FastLogin.UsernameTrimmedAndFolded | src/app/api/fast-login/route.ts:26-28 | Any name whose lower-case form is `admin`, with any white space before and after, logs in with the right password |
| FastLogin.PasswordIsExact | src/app/api/fast-login/route.ts:26-28 | Any other password fails, whatever the name |
| FastLogin.SameAnswerForEitherMistake | src/app/api/fast-login/route.ts:46-54 | A wrong name and a wrong password give the same answer |
| OptimizedImage.Optimize | src/components/ui/optimized-image.tsx:46-60 | Non-CDN URLs and CDN URLs without `/upload/` are unchanged; otherwise the segment goes after the first `/upload/` only |
| OptimizedImage.HostSurvivesRewrite | src/components/ui/optimized-image.tsx:47-57 | The rewritten URL still names the CDN and still has a `/upload/` |
| OptimizedImage.NotIdempotent | src/components/ui/optimized-image.tsx:57 | Rewriting a rewritten CDN URL inserts a second segment |
| OptimizedImage.AfterLoad | src/components/ui/optimized-image.tsx:85-88 | Loading ends; nothing else changes |
| OptimizedImage.AfterError | src/components/ui/optimized-image.tsx:90-102 | Loading ends and the source becomes the placeholder; the error flag is set iff the source already was the placeholder |
| OptimizedImage.TwoErrorsShowError | src/components/ui/optimized-image.tsx:90-102 | Two errors in a row always end in the error view, which further errors keep |
| OptimizedImage.ImageState.constructor | src/components/ui/optimized-image.tsx:41-43 | Loading, no error, the raw source |
| OptimizedImage.ImageState.SourceChanged | src/components/ui/optimized-image.tsx:81-83 | The source becomes the rewrite of the raw `src` |
| OptimizedImage.ImageState.HandleLoad | src/components/ui/optimized-image.tsx:85-88 | The state moves as `AfterLoad` says |
| OptimizedImage.ImageState.HandleError | src/components/ui/optimized-image.tsx:90-102 | The state moves as `AfterError` says |

## Left out

- Database access (queries, counts, connection probes), the image CDN, disk reads and writes: their outcomes are parameters; the health endpoint's latency, per-check messages and durations and the report's timestamp are not modelled.
- `Promise.race` timeouts: a timeout is a failed fetch whose message contains `timeout`.
- The clock and random numbers: parameters. The middleware reads the clock again for the sweep and the 429 reset time; the model uses one `now` for the whole request.
- Floating-point presentation: memory percentage, upload progress, file-size formatting.
- `parseInt` on non-numeric text (NaN): limits and pages are modelled as already parsed integers or absent.
- Projects.Answer: covers non-negative skip and take only; how the database treats a negative `skip` or `take` (from a page below 1 or a negative limit) is not modelled, and rows with equal sort keys keep their table order, where PostgreSQL leaves their order unspecified.
- Projects.Create: `completionDate` is kept as the submitted string; its conversion by `new Date` is not modelled.
- Middleware.Route: the login redirect clones the request URL and only sets `callbackUrl`, so the original query string is kept as well; the model's request has no query string and the redirect carries only `callbackUrl`.
- Projects.TotalPages: gives no count for `take == 0`, where JavaScript gives Infinity or NaN.
- Featured: the negative or zero limits `parseInt` can yield are treated by the same comparisons as positive ones; tags defaulting to `[]` and the nested media/tag includes are left out.
- Strings.ToLower: lower-cases ASCII letters only; no non-ASCII character lower-cases into the letters of `admin` or the four critical keywords as a single character, so the comparisons that use it decide the same.
- FastLogin.Login: user names and passwords that are not strings (where `trim` would throw) are not modelled; the response time is left out.
- ErrorReport.Tally: JavaScript object keys such as `__proto__` or `constructor` behave specially in the `mostCommon` reduce; the model counts them like any other message.
- ErrorReport.Post: the one-line summary appended to the application log and the content of the alert are left out; the alert is a flag.
- Session: the `admin-logged-in` cookie is read but only logged; the echoed `loginTime` is the parsed number, not the raw string.
- Upload.ProcessOne: the CDN call is an input that succeeds with its data or fails with a message; the duplicated `url` field equals `src` and is not repeated.
- The health endpoint's POST deep check, its 503 answer on a thrown error, and every other route (logout, cookie clearing, bcrypt and JWT logins, database status) are not part of this model.
- Rendering, the blur placeholder drawn on a canvas, and the `onLoad`/`onError` callbacks of the image component.
- The operational scripts and configuration files.

## Findings

| source | as written | input that shows it | evidently intended | confidence | as-written member | corrected member |
|---|---|---|---|---|---|---|
| src/app/api/health-check/route.ts:168-170 | the header is compared with `Bearer ${HEALTH_CHECK_TOKEN}`, which reads `Bearer undefined` when the variable is unset | production, no `HEALTH_CHECK_TOKEN`, header `Authorization: Bearer undefined` unlocks memory, checks and cloud name | only a configured token unlocks the details | not executed | Health.IsAdminAsWritten, Health.GetAsWritten, Health.UndefinedTokenUnlocks | Health.IsAdmin, Health.Get, Health.IsAdminNeedsToken |
| src/app/api/error-report/route.ts:243-245 | the header is compared with `Bearer ${ERROR_REPORT_TOKEN}`, which reads `Bearer undefined` when the variable is unset | production, no `ERROR_REPORT_TOKEN`, header `Authorization: Bearer undefined` reads the error log | only a configured token authorises reading the log | not executed | ErrorReport.AuthorizedAsWritten, ErrorReport.GetReportAsWritten, ErrorReport.UndefinedTokenReadsLog | ErrorReport.Authorized, ErrorReport.GetReport |

=== FILE: addproject.dfy ===
/**
 * The dashboard's "add project" form. Its state is edited by small pure
 * updates: tags and materials are lists without blanks or repeats, media
 * files are edited by id, and a picked file becomes a media entry. On
 * submit, each media file is checked and uploaded in turn; the uploaded
 * ones are numbered 0, 1, 2, … and a project is only requested when at
 * least one file went up.
 *
 * The upload call, the user's answer to the "continue?" prompt and the
 * random ids are parameters.
 */
module AddProject {
  import opened Common
  import opened Strings
  import Upload
  import Projects

  // --------------------------------------------------- tags and materials

  /** A tag or material list as the form keeps it: trimmed, non-empty and unrepeated entries. */
  predicate WellFormed(list: seq<string>) {
    Distinct(list) && forall k :: 0 <= k < |list| ==> Clean(list[k])
  }

  /** An entry as the form stores it: non-empty and already trimmed. */
  predicate Clean(entry: string) {
    entry != "" && Trim(entry) == entry
  }

  /** A well-formed list without its head is well formed and does not hold the head again. */
  lemma WellFormedTail(list: seq<string>)
    requires list != [] && WellFormed(list)
    ensures WellFormed(list[1..]) && list[0] !in list[1..] && Clean(list[0])
  {
    var t := list[1..];
    forall i, j | 0 <= i < j < |t| ensures t[i] != t[j] {
      assert list[i + 1] != list[j + 1];
    }
    forall k | 0 <= k < |t| ensures Clean(t[k]) {
      assert t[k] == list[k + 1];
    }
    assert list[0] == list[..1][0];
  }

  /** A clean new entry in front of a well-formed list keeps it well formed. */
  lemma WellFormedCons(x: string, list: seq<string>)
    requires Clean(x) && x !in list && WellFormed(list)
    ensures WellFormed([x] + list)
  {
    DistinctCons(x, list);
    var l := [x] + list;
    forall k | 0 <= k < |l| ensures Clean(l[k]) {
      if k > 0 {
        assert l[k] == list[k - 1];
      }
    }
  }

  /**
   * `addTag` / `addMaterial`: the trimmed input is appended and the input
   * cleared, unless it is blank or already listed; then nothing changes.
   */
  function AddEntry(list: seq<string>, input: string): (r: (seq<string>, string))
    ensures var t := Trim(input);
            (t != "" && t !in list ==> r == (list + [t], "")) &&
            (t == "" || t in list ==> r == (list, input))
  {
    var t := Trim(input);
    if t != "" && t !in list then (list + [t], "") else (list, input)
  }

  /** `removeTag` / `removeMaterial`: every entry equal to `x` is dropped, the others keep their order. */
  function RemoveEntry(list: seq<string>, x: string): (r: seq<string>)
    ensures x !in r
    ensures forall y :: y in r <==> y in list && y != x
    ensures x !in list ==> r == list
    ensures |r| <= |list|
  {
    if list == [] then []
    else if list[0] == x then RemoveEntry(list[1..], x)
    else [list[0]] + RemoveEntry(list[1..], x)
  }

  /**
   * `removeTag` is the filter `t => t !== tag`: the kept entries stay in
   * order, each as often as before, and the removed one is gone entirely.
   */
  lemma {:induction false} RemoveEntryFilters(list: seq<string>, x: string)
    ensures RemoveEntry(list, x) == Filter(list, y => y != x)
    ensures multiset(RemoveEntry(list, x)) == multiset(list)[x := 0]
  {
    if list != [] {
      RemoveEntryFilters(list[1..], x);
    }
    FilterCount(list, y => y != x);
  }

  /** Removing from a joined list is removing from each part. */
  lemma RemoveEntryAppend(a: seq<string>, b: seq<string>, x: string)
    ensures RemoveEntry(a + b, x) == RemoveEntry(a, x) + RemoveEntry(b, x)
  {
    RemoveEntryFilters(a + b, x);
    RemoveEntryFilters(a, x);
    RemoveEntryFilters(b, x);
    FilterAppend(a, b, y => y != x);
  }

  /** Adding keeps a list well formed: no blanks, no repeats, only trimmed entries. */
  lemma AddKeepsWellFormed(list: seq<string>, input: string)
    requires WellFormed(list)
    ensures WellFormed(AddEntry(list, input).0)
  {
    var t := Trim(input);
    if t != "" && t !in list {
      TrimIdempotent(input);
      var l := list + [t];
      DistinctSnoc(list, t);
      forall k | 0 <= k < |l| ensures Clean(l[k]) {
        if k < |list| {
          assert l[k] == list[k];
        }
      }
    }
  }

  lemma {:induction false} RemoveKeepsWellFormed(list: seq<string>, x: string)
    requires WellFormed(list)
    ensures WellFormed(RemoveEntry(list, x))
  {
    if list != [] {
      WellFormedTail(list);
      RemoveKeepsWellFormed(list[1..], x);
      if list[0] != x {
        WellFormedCons(list[0], RemoveEntry(list[1..], x));
      }
    }
  }

  /** Adding the same input twice adds it once. */
  lemma AddTwiceIsAddOnce(list: seq<string>, input: string)
    ensures AddEntry(AddEntry(list, input).0, input).0 == AddEntry(list, input).0
  {
  }

  /** Removing what was just added restores the list. */
  lemma {:induction false} RemoveUndoesAdd(list: seq<string>, input: string)
    requires Trim(input) != "" && Trim(input) !in list
    ensures RemoveEntry(AddEntry(list, input).0, Trim(input)) == list
  {
    var t := Trim(input);
    RemoveAppended(list, t);
  }

  lemma {:induction false} RemoveAppended(list: seq<string>, t: string)
    requires t !in list
    ensures RemoveEntry(list + [t], t) == list
  {
    if list != [] {
      assert (list + [t])[1..] == list[1..] + [t];
      RemoveAppended(list[1..], t);
    }
  }

  // ------------------------------------------------------------ media list

  /** A media entry of the form; the blob preview URL is left out. */
  datatype MediaFile = MediaFile(id: string, file: Upload.File, kind: Upload.MediaKind, title: string)

  /**
   * `handleFileSelect` for one file: an image iff the MIME type starts with
   * `image/`, titled with the file name up to its first dot.
   */
  function FromPicked(f: Upload.File, id: string): (m: MediaFile)
    ensures m.id == id && m.file == f
    ensures m.kind == Upload.Image <==> StartsWith(f.mimeType, "image/")
    ensures StartsWith(f.name, m.title) && '.' !in m.title
    ensures |m.title| < |f.name| ==> f.name[|m.title|] == '.'
  {
    var title := BeforeFirst(f.name, '.');
    MediaFile(id, f, if StartsWith(f.mimeType, "image/") then Upload.Image else Upload.Video, title)
  }

  /** All picked files appended, in order, each with its own random id. */
  function AddPicked(list: seq<MediaFile>, files: seq<Upload.File>, ids: seq<string>): (r: seq<MediaFile>)
    requires |ids| == |files|
    ensures |r| == |list| + |files| && r[..|list|] == list
    ensures forall k :: 0 <= k < |files| ==> r[|list| + k] == FromPicked(files[k], ids[k])
  {
    list + seq(|files|, k requires 0 <= k < |files| => FromPicked(files[k], ids[k]))
  }

  /** `removeMediaFile`: drops exactly the entries with this id. */
  function RemoveMedia(list: seq<MediaFile>, id: string): (r: seq<MediaFile>)
    ensures forall m :: m in r <==> m in list && m.id != id
    ensures (forall m :: m in list ==> m.id != id) ==> r == list
  {
    if list == [] then []
    else if list[0].id == id then RemoveMedia(list[1..], id)
    else [list[0]] + RemoveMedia(list[1..], id)
  }

  /** `removeMediaFile` is the filter `f => f.id !== id`: order and multiplicity of the rest are kept. */
  lemma {:induction false} RemoveMediaFilters(list: seq<MediaFile>, id: string)
    ensures RemoveMedia(list, id) == Filter(list, (m: MediaFile) => m.id != id)
    ensures forall m :: multiset(RemoveMedia(list, id))[m] == if m.id != id then multiset(list)[m] else 0
  {
    if list != [] {
      RemoveMediaFilters(list[1..], id);
    }
    FilterCount(list, (m: MediaFile) => m.id != id);
  }

  /** Removing from a joined media list is removing from each part. */
  lemma RemoveMediaAppend(a: seq<MediaFile>, b: seq<MediaFile>, id: string)
    ensures RemoveMedia(a + b, id) == RemoveMedia(a, id) + RemoveMedia(b, id)
  {
    RemoveMediaFilters(a + b, id);
    RemoveMediaFilters(a, id);
    RemoveMediaFilters(b, id);
    FilterAppend(a, b, (m: MediaFile) => m.id != id);
  }

  /** `updateMediaTitle`: the title of the entries with this id changes, nothing else does. */
  function Retitle(list: seq<MediaFile>, id: string, title: string): (r: seq<MediaFile>)
    ensures |r| == |list|
    ensures forall k :: 0 <= k < |list| ==>
      r[k].id == list[k].id && r[k].file == list[k].file && r[k].kind == list[k].kind
    ensures forall k :: 0 <= k < |list| && list[k].id == id ==> r[k].title == title
    ensures forall k :: 0 <= k < |list| && list[k].id != id ==> r[k] == list[k]
  {
    seq(|list|, k requires 0 <= k < |list| =>
      if list[k].id == id then list[k].(title := title) else list[k])
  }

  // ---------------------------------------------------------------- submit

  /** The text fields the submit handler checks. */
  datatype FormFields = FormFields(title: string, description: string, category: string)

  /** One media item in the body sent to the project endpoint. */
  datatype UploadedMedia = UploadedMedia(kind: string, src: string, thumbnail: string,
                                         title: string, description: string, order: nat)

  datatype UploadError = TooLarge(maxMiB: int) | WrongVideoType | WrongImageType | NoUrl

  /**
   * The client-side checks for one file: the size cap of its kind first,
   * then that kind's allow-list.
   */
  function Check(m: MediaFile): (r: Option<UploadError>)
    ensures r.None? <==>
      if m.kind == Upload.Video
      then m.file.size <= Upload.MaxVideoSize && m.file.mimeType in Upload.AllowedVideoTypes
      else m.file.size <= Upload.MaxImageSize && m.file.mimeType in Upload.AllowedImageTypes
    ensures var maxSize := if m.kind == Upload.Video then Upload.MaxVideoSize else Upload.MaxImageSize;
            (m.file.size > maxSize ==> r == Some(TooLarge(maxSize / Upload.MiB))) &&
            (r.Some? && r.value.TooLarge? ==> m.file.size > maxSize)
    ensures m.kind == Upload.Video && m.file.size <= Upload.MaxVideoSize &&
            m.file.mimeType !in Upload.AllowedVideoTypes
            ==> r == Some(WrongVideoType)
    ensures m.kind == Upload.Image && m.file.size <= Upload.MaxImageSize &&
            m.file.mimeType !in Upload.AllowedImageTypes
            ==> r == Some(WrongImageType)
  {
    var isVideo := m.kind == Upload.Video;
    var maxSize := if isVideo then Upload.MaxVideoSize else Upload.MaxImageSize;
    if m.file.size > maxSize then Some(TooLarge(maxSize / Upload.MiB))
    else if isVideo && m.file.mimeType !in Upload.AllowedVideoTypes then Some(WrongVideoType)
    else if !isVideo && m.file.mimeType !in Upload.AllowedImageTypes then Some(WrongImageType)
    else None
  }

  /** The URL a file went up to, or why it did not. `upload` is the call to the upload endpoint. */
  function Attempt(m: MediaFile, upload: Upload.File -> Option<string>): (r: Result<string, UploadError>)
    ensures r.Ok? ==> Check(m).None? && r.value != "" && upload(m.file) == Some(r.value)
    ensures Check(m).Some? ==> r == Err(Check(m).value)
    ensures Check(m).None? && upload(m.file).Some? && upload(m.file).value != "" ==>
              r == Ok(upload(m.file).value)
    ensures Check(m).None? && (upload(m.file).None? || upload(m.file) == Some("")) ==> r == Err(NoUrl)
  {
    match Check(m)
    case Some(e) => Err(e)
    case None =>
      match upload(m.file)
      case Some(url) => if url == "" then Err(NoUrl) else Ok(url)
      case None => Err(NoUrl)
  }

  function KindName(k: Upload.MediaKind): string {
    match k
    case Image => "IMAGE"
    case Video => "VIDEO"
  }

  /** The item pushed for an uploaded file, numbered by how many went up before it. */
  function Uploaded(m: MediaFile, url: string, order: nat): (u: UploadedMedia)
    ensures u.src == url && u.order == order
    ensures u.thumbnail == (if m.kind == Upload.Video then Upload.VideoThumbnail(url) else url)
    ensures u.title == (if m.title != "" then m.title else m.file.name)
  {
    UploadedMedia(KindName(m.kind), url,
                  if m.kind == Upload.Video then Upload.VideoThumbnail(url) else url,
                  if m.title != "" then m.title else m.file.name, "", order)
  }

  /** The state of the upload loop: what went up, how many failed, and whether the user stopped it. */
  datatype Progress = Progress(uploaded: seq<UploadedMedia>, failed: nat, stopped: bool)

  /**
   * The upload loop over the first files: after a failure the user is asked
   * whether to continue (`proceed`, asked with the file's index), and a "no"
   * ends the loop.
   */
  function Run(media: seq<MediaFile>, upload: Upload.File -> Option<string>, proceed: nat -> bool): Progress
    decreases |media|
  {
    if media == [] then Progress([], 0, false)
    else
      var p := Run(media[..|media| - 1], upload, proceed);
      if p.stopped then p
      else match Attempt(media[|media| - 1], upload)
        case Ok(url) => p.(uploaded := p.uploaded + [Uploaded(media[|media| - 1], url, |p.uploaded|)])
        case Err(_) => p.(failed := p.failed + 1, stopped := !proceed(|media| - 1))
  }

  /** Uploaded items carry the orders 0, 1, 2, … with no gaps, whatever failed in between. */
  lemma {:induction false} OrdersContiguous(media: seq<MediaFile>, upload: Upload.File -> Option<string>,
                                            proceed: nat -> bool)
    ensures var u := Run(media, upload, proceed).uploaded;
            forall k :: 0 <= k < |u| ==> u[k].order == k
    ensures var p := Run(media, upload, proceed);
            |p.uploaded| + p.failed <= |media| &&
            (!p.stopped ==> |p.uploaded| + p.failed == |media|)
    ensures forall k :: 0 <= k < |Run(media, upload, proceed).uploaded| ==>
            Run(media, upload, proceed).uploaded[k].src != ""
    decreases |media|
  {
    if media != [] {
      OrdersContiguous(media[..|media| - 1], upload, proceed);
    }
  }

  /** When every file fails its check, nothing is uploaded. */
  lemma {:induction false} AllRejectedNothingUploaded(media: seq<MediaFile>,
                                                      upload: Upload.File -> Option<string>,
                                                      proceed: nat -> bool)
    requires forall k :: 0 <= k < |media| ==> Check(media[k]).Some?
    ensures Run(media, upload, proceed).uploaded == []
    decreases |media|
  {
    if media != [] {
      AllRejectedNothingUploaded(media[..|media| - 1], upload, proceed);
    }
  }

  datatype SubmitOutcome =
    | MissingFields
    | Stopped(uploaded: seq<UploadedMedia>)
    | NothingUploaded
    | Submit(mediaItems: seq<UploadedMedia>, failed: nat)

  /**
   * `handleSubmit` up to the request that creates the project: the field
   * check, the upload loop, and the refusal to create a project without media.
   */
  method SubmitForm(form: FormFields, media: seq<MediaFile>,
                    upload: Upload.File -> Option<string>, proceed: nat -> bool)
    returns (outcome: SubmitOutcome)
    ensures outcome == MissingFields <==> form.title == "" || form.description == "" || form.category == ""
    ensures outcome != MissingFields ==>
      var p := Run(media, upload, proceed);
      && (p.stopped ==> outcome == Stopped(p.uploaded))
      && (!p.stopped && p.uploaded == [] ==> outcome == NothingUploaded)
      && (!p.stopped && p.uploaded != [] ==> outcome == Submit(p.uploaded, p.failed))
  {
    if form.title == "" || form.description == "" || form.category == "" {
      return MissingFields;
    }
    var uploaded: seq<UploadedMedia> := [];
    var failed := 0;
    for i := 0 to |media|
      invariant Run(media[..i], upload, proceed) == Progress(uploaded, failed, false)
    {
      assert media[..i + 1][..i] == media[..i];
      var m := media[i];
      var r := Attempt(m, upload);
      if r.Ok? {
        uploaded := uploaded + [Uploaded(m, r.value, |uploaded|)];
      } else {
        failed := failed + 1;
        if !proceed(i) {
          StoppedStaysStopped(media, upload, proceed, i + 1);
          return Stopped(uploaded);
        }
      }
    }
    assert media[..|media|] == media;
    if |uploaded| == 0 {
      return NothingUploaded;
    }
    return Submit(uploaded, failed);
  }

  /** Once the user stops the loop, the later files change nothing. */
  lemma {:induction false} StoppedStaysStopped(media: seq<MediaFile>, upload: Upload.File -> Option<string>,
                                               proceed: nat -> bool, i: nat)
    requires i <= |media| && Run(media[..i], upload, proceed).stopped
    ensures Run(media, upload, proceed) == Run(media[..i], upload, proceed)
    decreases |media|
  {
    if i < |media| {
      var t := media[..|media| - 1];
      assert t[..i] == media[..i];
      StoppedStaysStopped(t, upload, proceed, i);
    } else {
      assert media[..i] == media;
    }
  }

  /** The body's media items as the project endpoint reads them. */
  function AsInputs(items: seq<UploadedMedia>): (r: seq<Projects.MediaInput>)
    ensures |r| == |items|
  {
    seq(|items|, k requires 0 <= k < |items| =>
      var u := items[k];
      Projects.MediaInput(u.kind, Some(u.src), Some(u.thumbnail), Some(u.title), Some(u.description), None))
  }

  /**
   * The project endpoint accepts every media list a submission sends: each
   * item has a `src`, and the order it stores for each item is the order the
   * form assigned.
   */
  lemma SubmittedMediaAccepted(media: seq<MediaFile>, upload: Upload.File -> Option<string>,
                               proceed: nat -> bool)
    ensures var u := Run(media, upload, proceed).uploaded;
            var created := Projects.NormaliseMedia(AsInputs(u));
            && created.Ok?
            && (forall k :: 0 <= k < |u| ==> created.value[k].order == u[k].order)
            && (forall k :: 0 <= k < |u| ==> created.value[k].src == u[k].src)
  {
    OrdersContiguous(media, upload, proceed);
  }
}

=== FILE: common.dfy ===
/** Values shared by every module: optional values and outcomes with an error. */
module Common {

  /** A value that may be absent (a missing field, an unset variable, `null`). */
  datatype Option<+T> = None | Some(value: T) {
    function GetOr(default: T): T {
      match this
      case Some(v) => v
      case None => default
    }
  }

  /** The outcome of a step that may fail with an error of type E. */
  datatype Result<+T, +E> = Ok(value: T) | Err(error: E)

  /** A JavaScript string value that is present and not empty, i.e. truthy. */
  predicate Truthy(o: Option<string>) {
    o.Some? && o.value != ""
  }

  /**
   * The header value `Bearer ${token}` as a JavaScript template builds it: an
   * unset token is written out as the word `undefined`.
   */
  function BearerTemplate(token: Option<string>): string {
    "Bearer " + (if token.Some? then token.value else "undefined")
  }

  /** An `authorization` header compared with the template, as the endpoints do it. */
  predicate BearerMatchesAsWritten(header: Option<string>, token: Option<string>) {
    header == Some(BearerTemplate(token))
  }

  /** The comparison the endpoints intend: only a configured, non-empty token can match. */
  predicate BearerMatches(header: Option<string>, token: Option<string>) {
    Truthy(token) && header == Some("Bearer " + token.value)
  }

  /** With no token configured, the literal header `Bearer undefined` matches as written, and not as intended. */
  lemma UndefinedTokenMatches()
    ensures BearerMatchesAsWritten(Some("Bearer undefined"), None)
    ensures !BearerMatches(Some("Bearer undefined"), None)
  {
    assert BearerTemplate(None) == "Bearer " + "undefined" == "Bearer undefined";
  }

  /** The intended comparison accepts nothing the written one rejects, and nothing at all without a token. */
  lemma BearerMatchesNarrower(header: Option<string>, token: Option<string>)
    ensures BearerMatches(header, token) ==> BearerMatchesAsWritten(header, token)
    ensures !Truthy(token) ==> !BearerMatches(header, token)
  {
  }

  function Min(a: int, b: int): int { if a <= b then a else b }
  function Max(a: int, b: int): int { if a >= b then a else b }

  /** No value occurs twice in `xs`. */
  predicate Distinct<T(==)>(xs: seq<T>) {
    forall i, j :: 0 <= i < j < |xs| ==> xs[i] != xs[j]
  }

  /** A new value in front keeps a sequence free of repetitions. */
  lemma DistinctCons<T>(x: T, xs: seq<T>)
    requires Distinct(xs) && x !in xs
    ensures Distinct([x] + xs)
  {
    var ys := [x] + xs;
    forall i, j | 0 <= i < j < |ys|
      ensures ys[i] != ys[j]
    {
      assert ys[j] == xs[j - 1];
      if i > 0 {
        assert ys[i] == xs[i - 1];
      }
    }
  }

  /** A new value at the end keeps a sequence free of repetitions. */
  lemma DistinctSnoc<T>(xs: seq<T>, x: T)
    requires Distinct(xs) && x !in xs
    ensures Distinct(xs + [x])
  {
    var ys := xs + [x];
    forall i, j | 0 <= i < j < |ys|
      ensures ys[i] != ys[j]
    {
      assert ys[i] == xs[i];
      if j < |xs| {
        assert ys[j] == xs[j];
      }
    }
  }

  /** A prefix of a sequence free of repetitions is free of them. */
  lemma DistinctPrefix<T>(xs: seq<T>, n: nat)
    requires Distinct(xs) && n <= |xs|
    ensures Distinct(xs[..n])
  {
    forall i, j | 0 <= i < j < n
      ensures xs[..n][i] != xs[..n][j]
    {
      assert xs[..n][i] == xs[i] && xs[..n][j] == xs[j];
    }
  }

  /** The set of the values of `xs`. */
  function Elems<T(==)>(xs: seq<T>): set<T> {
    set x | x in xs
  }

  /** A sequence without repetitions has as many elements as its set of values. */
  lemma {:induction false} DistinctCard<T>(xs: seq<T>)
    requires Distinct(xs)
    ensures |Elems(xs)| == |xs|
  {
    if xs != [] {
      var t := xs[1..];
      DistinctCard(t);
      assert Elems(xs) == Elems(t) + {xs[0]};
      assert xs[0] !in Elems(t);
    }
  }

  /** A subset is no larger than its superset. */
  lemma SubsetCard<T>(a: set<T>, b: set<T>)
    requires a <= b
    ensures |a| <= |b|
  {
    assert b == a + (b - a);
  }

  /** `xs.filter(keep)`: the values `keep` accepts, in the order of `xs`. */
  function Filter<T(!new)>(xs: seq<T>, keep: T -> bool): (r: seq<T>)
    ensures |r| <= |xs|
    ensures forall x :: x in r <==> x in xs && keep(x)
  {
    if xs == [] then [] else (if keep(xs[0]) then [xs[0]] else []) + Filter(xs[1..], keep)
  }

  /**
   * Filtering distributes over concatenation, so a filter keeps the order of
   * what it keeps; with the one-value case (`[x]` or `[]`) it fixes the result.
   */
  lemma {:induction false} FilterAppend<T(!new)>(a: seq<T>, b: seq<T>, keep: T -> bool)
    ensures Filter(a + b, keep) == Filter(a, keep) + Filter(b, keep)
  {
    if a == [] {
      assert a + b == b;
    } else {
      assert (a + b)[1..] == a[1..] + b;
      FilterAppend(a[1..], b, keep);
    }
  }

  /** The one-value case: a filter keeps `[x]` or drops it. */
  lemma FilterSingle<T(!new)>(x: T, keep: T -> bool)
    ensures Filter([x], keep) == if keep(x) then [x] else []
  {
    assert [x][1..] == [];
  }

  /** A filter that accepts every value keeps the whole sequence. */
  lemma {:induction false} FilterKeepsAll<T(!new)>(xs: seq<T>, keep: T -> bool)
    requires forall x :: x in xs ==> keep(x)
    ensures Filter(xs, keep) == xs
  {
    if xs != [] {
      FilterKeepsAll(xs[1..], keep);
    }
  }

  /** A filter keeps every accepted value as often as it occurs and drops the others entirely. */
  lemma {:induction false} FilterCount<T(!new)>(xs: seq<T>, keep: T -> bool)
    ensures forall x :: multiset(Filter(xs, keep))[x] == if keep(x) then multiset(xs)[x] else 0
  {
    if xs != [] {
      FilterCount(xs[1..], keep);
      assert xs == [xs[0]] + xs[1..];
    }
  }
}

=== FILE: errorreport.dfy ===
/**
 * The client error-report endpoint. `POST` checks the request, fills in the
 * report's defaults, appends it to the day's log (which keeps only the
 * newest 1000 entries) and flags critical messages in production; `GET`
 * returns the newest 50 entries and a summary of the day's log to an
 * authorised caller.
 *
 * The day's log file is an input (absent, unreadable, or its entries), and
 * so are the clock (milliseconds and the ISO string of one hour ago), the
 * random id suffix and the outcome of writing the file.
 */
module ErrorReport {
  import opened Common
  import opened Strings

  const MaxLogEntries: nat := 1000
  const ListedEntries: nat := 50
  const HighRateThreshold: nat := 50
  const DefaultType: string := "frontend_error"
  const CriticalKeywords: seq<string> := ["database", "payment", "authentication", "security"]

  /** The fields of a request body the endpoint reads; `props` and `additionalInfo` are left out. */
  datatype Body = Body(errorId: Option<string>, message: Option<string>, stack: Option<string>,
                       componentStack: Option<string>, timestamp: Option<string>,
                       url: Option<string>, userAgent: Option<string>, kind: Option<string>)

  datatype Report = Report(errorId: string, message: string, stack: Option<string>,
                           componentStack: Option<string>, timestamp: string,
                           url: Option<string>, userAgent: Option<string>, kind: string, ip: string)

  /** One saved entry: the report, its id and when it was saved. */
  datatype Entry = Entry(report: Report, id: string, savedAt: string)

  /** The day's log file as it is found on disk. */
  datatype LogFile = NoFile | Unreadable | Entries(entries: seq<Entry>)

  /** A generated id: the clock in milliseconds, `_`, and a random base-36 suffix. */
  function GeneratedId(now: nat, suffix: string): (id: string)
    ensures id != ""
  {
    NatToString(now) + "_" + suffix
  }

  datatype Rejection = NotJson | MissingFields

  /**
   * The checks and defaults of `POST`: the content type must mention
   * `application/json`, `message` and `timestamp` must be present, the id
   * defaults to a generated one and the type to `frontend_error`.
   */
  function Prepare(contentType: Option<string>, body: Body, ip: string, now: nat, suffix: string)
    : (r: Result<Report, Rejection>)
    ensures r == Err(NotJson) <==> !(contentType.Some? && Contains(contentType.value, "application/json"))
    ensures r == Err(MissingFields) <==>
      contentType.Some? && Contains(contentType.value, "application/json") &&
      (!Truthy(body.message) || !Truthy(body.timestamp))
    ensures r.Ok? ==>
      && r.value.message == body.message.value && r.value.timestamp == body.timestamp.value
      && r.value.errorId != "" && r.value.kind != ""
      && (Truthy(body.errorId) ==> r.value.errorId == body.errorId.value)
      && (!Truthy(body.errorId) ==> r.value.errorId == GeneratedId(now, suffix))
      && (Truthy(body.kind) ==> r.value.kind == body.kind.value)
      && (!Truthy(body.kind) ==> r.value.kind == DefaultType)
  {
    if !(contentType.Some? && Contains(contentType.value, "application/json")) then Err(NotJson)
    else if !Truthy(body.message) || !Truthy(body.timestamp) then Err(MissingFields)
    else
      Ok(Report(if Truthy(body.errorId) then body.errorId.value else GeneratedId(now, suffix),
                body.message.value, body.stack, body.componentStack, body.timestamp.value,
                body.url, body.userAgent,
                if Truthy(body.kind) then body.kind.value else DefaultType, ip))
  }

  /** `request.ip`, else `x-forwarded-for`, else `unknown`. */
  function RequestIp(ip: Option<string>, forwardedFor: Option<string>): (r: string)
    ensures r != ""
  {
    if Truthy(ip) then ip.value else if Truthy(forwardedFor) then forwardedFor.value else "unknown"
  }

  /** The log once `entry` is pushed and the array cut to its newest `MaxLogEntries` entries. */
  function SavedLog(existing: seq<Entry>, entry: Entry): (r: seq<Entry>)
    ensures |r| == Min(|existing| + 1, MaxLogEntries)
    ensures r == (existing + [entry])[|existing| + 1 - |r|..]
    ensures r[|r| - 1] == entry
    ensures |existing| < MaxLogEntries ==> r[..|existing|] == existing
  {
    var all := existing + [entry];
    if |all| > MaxLogEntries then all[|all| - MaxLogEntries..] else all
  }

  /**
   * `saveErrorReport` after reading the file: the entry is pushed, then the
   * array is cut to its last 1000 entries. The new entry is always kept,
   * last, and only the oldest entries are dropped.
   */
  method SaveReport(existing: seq<Entry>, report: Report, fallbackId: string, savedAt: string)
    returns (errors: seq<Entry>)
    ensures |errors| == Min(|existing| + 1, MaxLogEntries)
    ensures errors == (existing + [Entry(report, if report.errorId != "" then report.errorId else fallbackId, savedAt)])
                      [|existing| + 1 - |errors|..]
    ensures errors[|errors| - 1].report == report && errors[|errors| - 1].savedAt == savedAt
    ensures |existing| < MaxLogEntries ==> errors[..|existing|] == existing
    ensures errors == SavedLog(existing, Entry(report, if report.errorId != "" then report.errorId else fallbackId, savedAt))
  {
    var entry := Entry(report, if report.errorId != "" then report.errorId else fallbackId, savedAt);
    errors := existing;
    errors := errors + [entry];
    ghost var all := errors;
    assert all[|all| - 1] == entry;
    if |errors| > MaxLogEntries {
      errors := errors[|errors| - MaxLogEntries..];
      assert errors[|errors| - 1] == all[|all| - 1];
    } else {
      assert errors[..|existing|] == existing;
    }
  }

  /** The entries already in the day's file: none when it is absent or does not parse. */
  function Existing(file: LogFile): seq<Entry> {
    match file
    case Entries(es) => es
    case _ => []
  }

  /** A message is critical iff, lower-cased, it contains one of the four keywords. */
  predicate IsCritical(message: string) {
    exists k :: 0 <= k < |CriticalKeywords| && Contains(ToLower(message), CriticalKeywords[k])
  }

  /** Lower-casing first makes the keyword match case-blind for ASCII letters. */
  lemma CriticalIgnoresCase(message: string, other: string)
    requires |message| == |other|
    requires forall i :: 0 <= i < |message| ==> LowerChar(message[i]) == LowerChar(other[i])
    ensures IsCritical(message) <==> IsCritical(other)
  {
    assert ToLower(message) == ToLower(other);
  }

  datatype PostResponse =
    | Rejected(reason: Rejection)
    | SaveFailed
    | Unparsable
    | Saved(errorId: string, log: seq<Entry>, alert: bool)

  function PostStatus(r: PostResponse): int {
    match r
    case Rejected(_) => 400
    case SaveFailed => 500
    case Unparsable => 500
    case Saved(_, _, _) => 200
  }

  /**
   * `POST`: check the content type, read the body, prepare the report, save
   * it, and raise an alert for a critical message in production. `body` is
   * `None` when `request.json()` throws; `writeOk` is whether the file could
   * be written; `fallbackSuffix` is the random part of the id the save step
   * would generate.
   */
  method Post(contentType: Option<string>, body: Option<Body>, ip: Option<string>, forwardedFor: Option<string>,
              now: nat, suffix: string, fallbackSuffix: string, file: LogFile, savedAt: string,
              writeOk: bool, production: bool)
    returns (resp: PostResponse)
    ensures !(contentType.Some? && Contains(contentType.value, "application/json")) ==> resp == Rejected(NotJson)
    ensures contentType.Some? && Contains(contentType.value, "application/json") && body.None? ==>
              resp == Unparsable
    ensures body.Some? ==>
      var p := Prepare(contentType, body.value, RequestIp(ip, forwardedFor), now, suffix);
      var existing := Existing(file);
      && (p.Err? ==> resp == Rejected(p.error))
      && (p.Ok? && !writeOk ==> resp == SaveFailed)
      && (p.Ok? && writeOk ==>
            && resp.Saved?
            && resp.errorId == p.value.errorId
            && resp.alert == (production && IsCritical(p.value.message))
            && 1 <= |resp.log| <= MaxLogEntries
            && resp.log[|resp.log| - 1].report == p.value
            && resp.log[|resp.log| - 1].id == p.value.errorId
            && |resp.log| == Min(|existing| + 1, MaxLogEntries)
            && resp.log == (existing + [Entry(p.value, p.value.errorId, savedAt)])[|existing| + 1 - |resp.log|..]
            && (|existing| < MaxLogEntries ==> resp.log[..|existing|] == existing)
            && resp.log == SavedLog(existing, Entry(p.value, p.value.errorId, savedAt)))
  {
    if !(contentType.Some? && Contains(contentType.value, "application/json")) {
      resp := Rejected(NotJson);
    } else if body.None? {
      resp := Unparsable;
    } else {
      var prepared := Prepare(contentType, body.value, RequestIp(ip, forwardedFor), now, suffix);
      if prepared.Err? {
        resp := Rejected(prepared.error);
      } else {
        var report := prepared.value;
        assert report.errorId != "";
        var log := SaveReport(Existing(file), report, GeneratedId(now, fallbackSuffix), savedAt);
        assert log == SavedLog(Existing(file), Entry(report, report.errorId, savedAt));
        resp := if writeOk then Saved(report.errorId, log, production && IsCritical(report.message)) else SaveFailed;
      }
    }
  }


  // ------------------------------------------------------------ statistics

  /** The entries whose timestamp sorts after the cut-off (one hour ago, as an ISO string). */
  function Recent(errors: seq<Entry>, cutoff: string): (r: seq<Entry>)
    ensures |r| <= |errors|
    ensures forall e :: e in r <==> e in errors && Less(cutoff, e.report.timestamp)
  {
    if errors == [] then []
    else if Less(cutoff, errors[0].report.timestamp) then [errors[0]] + Recent(errors[1..], cutoff)
    else Recent(errors[1..], cutoff)
  }

  function Critical(errors: seq<Entry>): (r: seq<Entry>)
    ensures |r| <= |errors|
    ensures forall e :: e in r <==> e in errors && IsCritical(e.report.message)
  {
    if errors == [] then []
    else if IsCritical(errors[0].report.message) then [errors[0]] + Critical(errors[1..])
    else Critical(errors[1..])
  }

  /** `isErrorRateHigh`: strictly more than 50 entries in the last hour. */
  predicate IsErrorRateHigh(errors: seq<Entry>, cutoff: string) {
    |Recent(errors, cutoff)| > HighRateThreshold
  }

  /** `errors.filter(e => new Date(e.timestamp) > oneHourAgo)`: the recent entries in log order, each as often as logged. */
  lemma RecentFilters(errors: seq<Entry>, cutoff: string)
    ensures Recent(errors, cutoff) == Filter(errors, (e: Entry) => Less(cutoff, e.report.timestamp))
    ensures forall e :: multiset(Recent(errors, cutoff))[e] ==
                        if Less(cutoff, e.report.timestamp) then multiset(errors)[e] else 0
  {
    RecentIsFilter(errors, cutoff);
    FilterCount(errors, (e: Entry) => Less(cutoff, e.report.timestamp));
  }

  lemma {:induction false} RecentIsFilter(errors: seq<Entry>, cutoff: string)
    ensures Recent(errors, cutoff) == Filter(errors, (e: Entry) => Less(cutoff, e.report.timestamp))
  {
    if errors != [] {
      RecentIsFilter(errors[1..], cutoff);
      var keep := (e: Entry) => Less(cutoff, e.report.timestamp);
      assert keep(errors[0]) == Less(cutoff, errors[0].report.timestamp);
    }
  }

  /** The critical entries in log order, each as often as logged. */
  lemma {:induction false} CriticalFilters(errors: seq<Entry>)
    ensures Critical(errors) == Filter(errors, (e: Entry) => IsCritical(e.report.message))
    ensures forall e :: multiset(Critical(errors))[e] ==
                        if IsCritical(e.report.message) then multiset(errors)[e] else 0
  {
    if errors != [] {
      CriticalFilters(errors[1..]);
    }
    FilterCount(errors, (e: Entry) => IsCritical(e.report.message));
  }

  /** The recent entries of a log extended by more entries are those of each part, so the count adds up. */
  lemma RecentAppend(errors: seq<Entry>, more: seq<Entry>, cutoff: string)
    ensures Recent(errors + more, cutoff) == Recent(errors, cutoff) + Recent(more, cutoff)
    ensures |Recent(errors + more, cutoff)| == |Recent(errors, cutoff)| + |Recent(more, cutoff)|
  {
    RecentFilters(errors + more, cutoff);
    RecentFilters(errors, cutoff);
    RecentFilters(more, cutoff);
    FilterAppend(errors, more, (e: Entry) => Less(cutoff, e.report.timestamp));
  }

  /** Appending entries never clears a high error rate for the same cut-off. */
  lemma HighRateStays(errors: seq<Entry>, more: seq<Entry>, cutoff: string)
    requires IsErrorRateHigh(errors, cutoff)
    ensures IsErrorRateHigh(errors + more, cutoff)
  {
    RecentAppend(errors, more, cutoff);
  }

  function Get(m: map<string, nat>, k: string): nat {
    if k in m then m[k] else 0
  }

  /** `mostCommon`: how many entries carry each message. */
  function Tally(errors: seq<Entry>): map<string, nat>
    decreases |errors|
  {
    if errors == [] then map[]
    else
      var m := Tally(errors[..|errors| - 1]);
      var k := errors[|errors| - 1].report.message;
      m[k := Get(m, k) + 1]
  }

  /** The distinct messages, in order of first appearance. */
  function Messages(errors: seq<Entry>): seq<string>
    decreases |errors|
  {
    if errors == [] then []
    else
      var ks := Messages(errors[..|errors| - 1]);
      var k := errors[|errors| - 1].report.message;
      if k in ks then ks else ks + [k]
  }

  function SumOver(keys: seq<string>, m: map<string, nat>): int {
    if keys == [] then 0 else Get(m, keys[0]) + SumOver(keys[1..], m)
  }

  lemma {:induction false} SumOverUpdate(keys: seq<string>, m: map<string, nat>, k: string, v: nat)
    requires Distinct(keys)
    ensures SumOver(keys, m[k := v]) == SumOver(keys, m) + (if k in keys then v - Get(m, k) else 0)
  {
    if keys != [] {
      var t := keys[1..];
      assert Distinct(t) by {
        forall i, j | 0 <= i < j < |t| ensures t[i] != t[j] {
          assert keys[i + 1] != keys[j + 1];
        }
      }
      SumOverUpdate(t, m, k, v);
      if keys[0] == k {
        assert k !in t;
      }
    }
  }

  lemma {:induction false} SumOverAppend(keys: seq<string>, k: string, m: map<string, nat>)
    ensures SumOver(keys + [k], m) == SumOver(keys, m) + Get(m, k)
  {
    if keys != [] {
      assert (keys + [k])[1..] == keys[1..] + [k];
      SumOverAppend(keys[1..], k, m);
    }
  }

  /**
   * The `mostCommon` counts: one key per distinct message, and the counts
   * add up to the number of entries.
   */
  lemma {:induction false} TallySumsToTotal(errors: seq<Entry>)
    ensures Distinct(Messages(errors))
    ensures forall k :: k in Tally(errors) <==> k in Messages(errors)
    ensures SumOver(Messages(errors), Tally(errors)) == |errors|
    decreases |errors|
  {
    if errors != [] {
      var t := errors[..|errors| - 1];
      var k := errors[|errors| - 1].report.message;
      TallySumsToTotal(t);
      var m := Tally(t);
      var ks := Messages(t);
      SumOverUpdate(ks, m, k, Get(m, k) + 1);
      if k !in ks {
        SumOverAppend(ks, k, m[k := Get(m, k) + 1]);
        assert Distinct(ks + [k]) by {
          forall i, j | 0 <= i < j < |ks + [k]| ensures (ks + [k])[i] != (ks + [k])[j] {
            if j == |ks| {
              assert ks[i] in ks;
            }
          }
        }
      }
    }
  }

  datatype Summary = Summary(total: nat, critical: nat, recent: nat, mostCommon: map<string, nat>)

  function Summarize(errors: seq<Entry>, cutoff: string): (s: Summary)
    ensures s.total == |errors|
    ensures s.critical <= s.total && s.recent <= s.total
    ensures s.critical == |Critical(errors)| && s.recent == |Recent(errors, cutoff)|
    ensures s.mostCommon == Tally(errors)
  {
    Summary(|errors|, |Critical(errors)|, |Recent(errors, cutoff)|, Tally(errors))
  }

  /** `errors.slice(-50)`: the newest 50 entries, or all of them. */
  function Newest(errors: seq<Entry>): (r: seq<Entry>)
    ensures |r| == Min(|errors|, ListedEntries)
    ensures r == errors[|errors| - |r|..]
  {
    if |errors| > ListedEntries then errors[|errors| - ListedEntries..] else errors
  }

  datatype GetResponse =
    | Unauthorized
    | ReadFailed
    | Listing(errors: seq<Entry>, summary: Summary)

  /** Authorised by `Bearer <ERROR_REPORT_TOKEN>` or by development mode. */
  predicate Authorized(authorization: Option<string>, token: Option<string>, nodeEnv: Option<string>) {
    BearerMatches(authorization, token) || nodeEnv == Some("development")
  }

  /** The same check with the header compared against the template as the source builds it. */
  predicate AuthorizedAsWritten(authorization: Option<string>, token: Option<string>, nodeEnv: Option<string>) {
    BearerMatchesAsWritten(authorization, token) || nodeEnv == Some("development")
  }

  /** In production with no token configured, the header `Bearer undefined` reads the log as written. */
  lemma UndefinedTokenReadsLog()
    ensures AuthorizedAsWritten(Some("Bearer undefined"), None, Some("production"))
    ensures !Authorized(Some("Bearer undefined"), None, Some("production"))
  {
    UndefinedTokenMatches();
  }

  /** `GET` once the caller is known to be authorised or not: 401, 500 for an unreadable file, else the listing. */
  function Answer(authorized: bool, file: LogFile, cutoff: string): (r: GetResponse)
    ensures r == Unauthorized <==> !authorized
    ensures r == ReadFailed <==> authorized && file.Unreadable?
    ensures r.Listing? ==> |r.errors| <= ListedEntries && r.summary.critical <= r.summary.total &&
                           r.summary.recent <= r.summary.total
    ensures r.Listing? && file.NoFile? ==> r.errors == [] && r.summary.total == 0
    ensures r.Listing? && file.Entries? ==>
              r.summary == Summarize(file.entries, cutoff) && r.errors == Newest(file.entries)
  {
    if !authorized then Unauthorized
    else match file
      case NoFile => Listing([], Summary(0, 0, 0, map[]))
      case Unreadable => ReadFailed
      case Entries(es) => Listing(Newest(es), Summarize(es, cutoff))
  }

  /** `GET` with the intended token comparison. */
  function GetReport(authorization: Option<string>, token: Option<string>, nodeEnv: Option<string>,
                     file: LogFile, cutoff: string): (r: GetResponse)
    ensures r == Unauthorized <==> !Authorized(authorization, token, nodeEnv)
    ensures !Truthy(token) && nodeEnv != Some("development") ==> r == Unauthorized
    ensures r != Unauthorized ==> r == Answer(true, file, cutoff)
  {
    Answer(Authorized(authorization, token, nodeEnv), file, cutoff)
  }

  /** `GET` as written: the header is compared with the template, so `Bearer undefined` reads the log without a token. */
  function GetReportAsWritten(authorization: Option<string>, token: Option<string>, nodeEnv: Option<string>,
                              file: LogFile, cutoff: string): (r: GetResponse)
    ensures r == Unauthorized <==> !AuthorizedAsWritten(authorization, token, nodeEnv)
    ensures token.None? && authorization == Some("Bearer undefined") ==> r == Answer(true, file, cutoff)
    ensures r != Unauthorized ==> r == Answer(true, file, cutoff)
  {
    UndefinedTokenMatches();
    Answer(AuthorizedAsWritten(authorization, token, nodeEnv), file, cutoff)
  }
}

=== FILE: fastlogin.dfy ===
/**
 * The quick-login endpoint: a fixed administrator account compared with the
 * submitted user name and password. The user name is trimmed and
 * lower-cased before the comparison; the password is compared exactly.
 */
module FastLogin {
  import opened Common
  import opened Strings

  const AdminUsername: string := "admin"
  const AdminPassword: string := "admin123"
  const AdminId: string := "1"
  const AdminEmail: string := "admin@aldeyarksa.tech"

  datatype Admin = Admin(id: string, username: string, email: string)

  /** A missing field, wrong credentials (one answer whichever was wrong), or the fixed account. */
  datatype Outcome = MissingCredentials | WrongCredentials | LoggedIn(admin: Admin)

  predicate ValidCredentials(username: string, password: string) {
    ToLower(Trim(username)) == AdminUsername && password == AdminPassword
  }

  /** The credential check of `POST`; only `LoggedIn` answers with `success: true`. */
  function Login(username: Option<string>, password: Option<string>): (o: Outcome)
    ensures o == MissingCredentials <==> !Truthy(username) || !Truthy(password)
    ensures o.LoggedIn? <==>
      Truthy(username) && Truthy(password) && ValidCredentials(username.value, password.value)
    ensures o.LoggedIn? ==> o.admin == Admin(AdminId, AdminUsername, AdminEmail)
  {
    if !Truthy(username) || !Truthy(password) then MissingCredentials
    else if ValidCredentials(username.value, password.value) then LoggedIn(Admin(AdminId, AdminUsername, AdminEmail))
    else WrongCredentials
  }

  /**
   * Any white space around the user name, and any mix of upper and lower
   * case in it, is accepted with the right password.
   */
  lemma UsernameTrimmedAndFolded(before: string, name: string, after: string)
    requires forall k :: 0 <= k < |before| ==> IsWhitespace(before[k])
    requires forall k :: 0 <= k < |after| ==> IsWhitespace(after[k])
    requires ToLower(name) == AdminUsername
    ensures Login(Some(before + name + after), Some(AdminPassword)).LoggedIn?
  {
    assert LowerChar(name[0]) == 'a' && LowerChar(name[4]) == 'n';
    TrimPadded(before, name, after);
  }

  /** The password is neither trimmed nor folded. */
  lemma PasswordIsExact(username: string, password: string)
    requires password != AdminPassword && password != ""
    requires username != ""
    ensures Login(Some(username), Some(password)) == WrongCredentials
  {
  }

  /** The request body: unreadable JSON, or the two fields as sent. */
  datatype Body = Unreadable | Credentials(username: Option<string>, password: Option<string>)

  /** `POST`: an unreadable body is a server error (500); every other answer is a 200. */
  function Post(body: Body): (r: (int, Option<Outcome>))
    ensures r.0 == 500 <==> body.Unreadable?
    ensures r.0 != 500 ==> r.0 == 200
    ensures r.1.None? <==> body.Unreadable?
    ensures body.Credentials? ==> r.1 == Some(Login(body.username, body.password))
  {
    match body
    case Unreadable => (500, None)
    case Credentials(u, p) => (200, Some(Login(u, p)))
  }

  /** A wrong user name and a wrong password give the same answer. */
  lemma SameAnswerForEitherMistake(username: string, password: string)
    requires username != "" && !ValidCredentials(username, AdminPassword)
    requires password != AdminPassword && password != ""
    ensures Login(Some(username), Some(AdminPassword)) == Login(Some(AdminUsername), Some(password))
  {
    PasswordIsExact(AdminUsername, password);
  }
}

=== FILE: featured.dfy ===
/**
 * The featured-projects endpoint for the home page. It asks the database
 * for up to `limit` featured projects, tops the list up with the newest
 * regular projects when there are too few, and then picks a diverse
 * selection: first one project of each category, in order, then the rest
 * in order until the limit is reached.
 *
 * The project table is an input, given in the two orders the endpoint's
 * queries use; the queries' `where` and `take` are modelled by `Query`.
 */
module Featured {
  import opened Common
  import opened Projects

  const DefaultLimit: int := 8
  const MaxLimit: int := 20

  /** `min(parseInt(limit || "8"), 20)`. */
  function EffectiveLimit(param: Option<int>): (limit: int)
    ensures limit <= MaxLimit
    ensures param.None? ==> limit == DefaultLimit
    ensures param.Some? ==> limit == Min(param.value, MaxLimit)
  {
    Min(param.GetOr(DefaultLimit), MaxLimit)
  }

  function Ids(s: seq<Project>): (r: seq<string>)
    ensures |r| == |s| && forall k :: 0 <= k < |s| ==> r[k] == s[k].id
  {
    seq(|s|, k requires 0 <= k < |s| => s[k].id)
  }

  function Cats(s: seq<Project>): (r: seq<string>)
    ensures |r| == |s| && forall k :: 0 <= k < |s| ==> r[k] == s[k].category
  {
    seq(|s|, k requires 0 <= k < |s| => s[k].category)
  }

  // --------------------------------------------------------------- queries

  /**
   * `findMany({ where, take: n })` over rows in the query's order: the first
   * `n` rows whose flag is `featured` and whose id is not `excluded`.
   */
  function Query(rows: seq<Project>, n: int, featured: bool, excluded: seq<string>): (r: seq<Project>)
    ensures |r| <= Max(0, n)
    ensures forall p :: p in r ==> p in rows && p.featured == featured && p.id !in excluded
    ensures |r| < n ==> forall p :: p in rows && p.featured == featured && p.id !in excluded ==> p in r
    decreases |rows|
  {
    if rows == [] || n <= 0 then []
    else if rows[0].featured == featured && rows[0].id !in excluded then
      [rows[0]] + Query(rows[1..], n - 1, featured, excluded)
    else Query(rows[1..], n, featured, excluded)
  }

  /** The `where` of a featured-page query: the flag, and no excluded id. */
  predicate Selected(p: Project, featured: bool, excluded: seq<string>) {
    p.featured == featured && p.id !in excluded
  }

  /** The query answers the first `n` rows that pass its `where`, in the table's order. */
  lemma {:induction false} QueryTakesFirst(rows: seq<Project>, n: int, featured: bool, excluded: seq<string>)
    ensures var m := Filter(rows, p => Selected(p, featured, excluded));
            Query(rows, n, featured, excluded) == m[..Min(Max(0, n), |m|)]
    decreases |rows|
  {
    if rows != [] && n > 0 {
      var keep := (p: Project) => Selected(p, featured, excluded);
      var m' := Filter(rows[1..], keep);
      assert Selected(rows[0], featured, excluded) <==> keep(rows[0]);
      if keep(rows[0]) {
        assert Query(rows, n, featured, excluded) == [rows[0]] + Query(rows[1..], n - 1, featured, excluded);
        assert Filter(rows, keep) == [rows[0]] + m';
        QueryTakesFirst(rows[1..], n - 1, featured, excluded);
        PrefixCons(rows[0], m', n);
      } else {
        assert Query(rows, n, featured, excluded) == Query(rows[1..], n, featured, excluded);
        assert Filter(rows, keep) == m';
        QueryTakesFirst(rows[1..], n, featured, excluded);
      }
    }
  }

  /** The first `n` values of `[x] + m` are `x` and the first `n - 1` of `m`. */
  lemma PrefixCons<T>(x: T, m: seq<T>, n: int)
    requires n > 0
    ensures ([x] + m)[..Min(n, |m| + 1)] == [x] + m[..Min(Max(0, n - 1), |m|)]
  {
  }

  /** A table with unique ids keeps them unique without its first row, and that row's id does not recur. */
  lemma DistinctTail(rows: seq<Project>)
    requires rows != [] && Distinct(Ids(rows))
    ensures Distinct(Ids(rows[1..]))
    ensures rows[0].id !in Ids(rows[1..])
  {
    var rest := rows[1..];
    forall i, j | 0 <= i < j < |rest|
      ensures Ids(rest)[i] != Ids(rest)[j]
    {
      assert Ids(rows)[i + 1] != Ids(rows)[j + 1];
    }
    forall m | 0 <= m < |rest|
      ensures Ids(rest)[m] != rows[0].id
    {
      assert Ids(rows)[0] != Ids(rows)[m + 1];
    }
  }

  /** The ids of a selection drawn from `rows` are ids of `rows`. */
  lemma IdsOfDrawn(q: seq<Project>, rows: seq<Project>)
    requires forall p :: p in q ==> p in rows
    ensures forall x :: x in Ids(q) ==> x in Ids(rows)
  {
    forall x | x in Ids(q)
      ensures x in Ids(rows)
    {
      var k :| 0 <= k < |q| && Ids(q)[k] == x;
      assert q[k] in q;
      var m :| 0 <= m < |rows| && rows[m] == q[k];
      assert Ids(rows)[m] == x;
    }
  }

  lemma IdsCons(x: Project, q: seq<Project>)
    ensures Ids([x] + q) == [x.id] + Ids(q)
  {
  }

  /** In a table with unique ids, the first row's id is not among the ids of rows drawn from the others. */
  lemma FirstIdNotDrawn(rows: seq<Project>, q: seq<Project>)
    requires rows != [] && Distinct(Ids(rows))
    requires forall p :: p in q ==> p in rows[1..]
    ensures rows[0].id !in Ids(q)
  {
    DistinctTail(rows);
    IdsOfDrawn(q, rows[1..]);
  }

  /** A row the query takes in front of a repetition-free rest keeps the result free of repetitions. */
  lemma QueryConsDistinct(rows: seq<Project>, n: int, featured: bool, excluded: seq<string>)
    requires rows != [] && n > 0 && rows[0].featured == featured && rows[0].id !in excluded
    requires Distinct(Ids(rows)) && Distinct(Ids(Query(rows[1..], n - 1, featured, excluded)))
    ensures Distinct(Ids(Query(rows, n, featured, excluded)))
  {
    var q := Query(rows[1..], n - 1, featured, excluded);
    assert Query(rows, n, featured, excluded) == [rows[0]] + q;
    FirstIdNotDrawn(rows, q);
    DistinctCons(rows[0].id, Ids(q));
    IdsCons(rows[0], q);
  }

  lemma {:induction false} QueryDistinct(rows: seq<Project>, n: int, featured: bool, excluded: seq<string>)
    requires Distinct(Ids(rows))
    ensures Distinct(Ids(Query(rows, n, featured, excluded)))
    decreases |rows|
  {
    if rows != [] && n > 0 {
      DistinctTail(rows);
      if rows[0].featured == featured && rows[0].id !in excluded {
        QueryDistinct(rows[1..], n - 1, featured, excluded);
        QueryConsDistinct(rows, n, featured, excluded);
      } else {
        QueryDistinct(rows[1..], n, featured, excluded);
      }
    }
  }

  /** The featured projects, topped up with regular ones when there are fewer than `limit`. */
  function TopUp(featured: seq<Project>, byNewest: seq<Project>, limit: int): (r: seq<Project>)
    ensures |featured| >= limit ==> r == featured
    ensures |featured| <= |r| && r[..|featured|] == featured
    ensures |r| - |featured| <= Max(0, limit - |featured|)
    ensures forall k :: |featured| <= k < |r| ==>
      !r[k].featured && r[k].id !in Ids(featured) && r[k] in byNewest
  {
    if |featured| < limit then
      featured + Query(byNewest, limit - |featured|, false, Ids(featured))
    else featured
  }

  /** The projects the selection chooses from: both queries' results, featured first. */
  function Candidates(byFeatured: seq<Project>, byNewest: seq<Project>, limit: int): seq<Project> {
    TopUp(Query(byFeatured, limit, true, []), byNewest, limit)
  }

  lemma CandidatesDistinct(byFeatured: seq<Project>, byNewest: seq<Project>, limit: int)
    requires Distinct(Ids(byFeatured)) && Distinct(Ids(byNewest))
    ensures Distinct(Ids(Candidates(byFeatured, byNewest, limit)))
    ensures |Candidates(byFeatured, byNewest, limit)| <= Max(0, limit)
  {
    var f := Query(byFeatured, limit, true, []);
    QueryDistinct(byFeatured, limit, true, []);
    if |f| < limit {
      var g := Query(byNewest, limit - |f|, false, Ids(f));
      QueryDistinct(byNewest, limit - |f|, false, Ids(f));
      var c := f + g;
      forall i, j | 0 <= i < j < |c|
        ensures Ids(c)[i] != Ids(c)[j]
      {
        if j >= |f| && i < |f| {
          assert c[j] == g[j - |f|] && c[j] in g;
          assert Ids(f)[i] == c[i].id;
        }
      }
    }
  }

  // ------------------------------------------------------------- selection

  /** The first project of each category, in input order. */
  function Reps(s: seq<Project>): seq<Project>
    decreases |s|
  {
    if s == [] then []
    else
      var r := Reps(s[..|s| - 1]);
      if s[|s| - 1].category !in Cats(r) then r + [s[|s| - 1]] else r
  }

  /** Pass one: a project is taken when its category is new and there is room. */
  function PassOne(s: seq<Project>, limit: int): seq<Project>
    decreases |s|
  {
    if s == [] then []
    else
      var r := PassOne(s[..|s| - 1], limit);
      if s[|s| - 1].category !in Cats(r) && |r| < limit then r + [s[|s| - 1]] else r
  }

  /** Pass two: starting from `start`, a project is taken when there is room and its id is new. */
  function Fill(s: seq<Project>, start: seq<Project>, limit: int): seq<Project>
    decreases |s|
  {
    if s == [] then start
    else
      var r := Fill(s[..|s| - 1], start, limit);
      if |r| >= limit || s[|s| - 1].id in Ids(r) then r else r + [s[|s| - 1]]
  }

  /** The diverse selection from the candidates. */
  function Select(all: seq<Project>, limit: int): seq<Project> {
    Fill(all, PassOne(all, limit), limit)
  }

  /** The number of picks `limit` allows out of `n`. */
  function Clamp(limit: int, n: nat): nat {
    if limit <= 0 then 0 else Min(limit, n)
  }

  /**
   * The two selection loops. The categories seen are kept in a set (the
   * source's `Map` from category to `true`), and the second loop stops as
   * soon as the selection is full.
   */
  method Diversify(all: seq<Project>, limit: int) returns (chosen: seq<Project>)
    ensures chosen == Select(all, limit)
  {
    var seen: set<string> := {};
    chosen := [];
    var i := 0;
    while i < |all|
      invariant 0 <= i <= |all|
      invariant chosen == PassOne(all[..i], limit)
      invariant forall c :: c in seen <==> c in Cats(chosen)
    {
      var p := all[i];
      assert all[..i + 1][..i] == all[..i];
      if p.category !in seen && |chosen| < limit {
        seen := seen + {p.category};
        chosen := chosen + [p];
        assert Cats(chosen) == Cats(chosen[..|chosen| - 1]) + [p.category];
      }
      i := i + 1;
    }
    assert all[..i] == all;
    ghost var first := chosen;
    i := 0;
    while i < |all|
      invariant 0 <= i <= |all|
      invariant chosen == Fill(all[..i], first, limit)
    {
      if |chosen| >= limit {
        FillStops(all, first, limit, i);
        return;
      }
      var p := all[i];
      assert all[..i + 1][..i] == all[..i];
      if p.id !in Ids(chosen) {
        chosen := chosen + [p];
      }
      i := i + 1;
    }
    assert all[..i] == all;
  }

  /** Once the selection is full, pass two takes nothing more. */
  lemma {:induction false} FillStops(s: seq<Project>, start: seq<Project>, limit: int, i: nat)
    requires i <= |s|
    requires |Fill(s[..i], start, limit)| >= limit
    ensures Fill(s, start, limit) == Fill(s[..i], start, limit)
    decreases |s|
  {
    if i < |s| {
      var t := s[..|s| - 1];
      assert t[..i] == s[..i];
      FillStops(t, start, limit, i);
    } else {
      assert s[..i] == s;
    }
  }

  // ------------------------------------------------------ selection lemmas

  lemma IdsSnoc(r: seq<Project>, p: Project)
    ensures Ids(r + [p]) == Ids(r) + [p.id]
    ensures Cats(r + [p]) == Cats(r) + [p.category]
  {
  }

  lemma IdsPrefix(s: seq<Project>, n: nat)
    requires n <= |s|
    ensures Ids(s[..n]) == Ids(s)[..n]
  {
  }

  /** Every representative comes from the input. */
  lemma {:induction false} RepsDrawn(s: seq<Project>)
    ensures forall p :: p in Reps(s) ==> p in s
    decreases |s|
  {
    if s != [] {
      var t := s[..|s| - 1];
      RepsDrawn(t);
      assert s == t + [s[|s| - 1]];
    }
  }

  /** The representatives cover every category of the input, each once. */
  lemma {:induction false} RepsCats(s: seq<Project>)
    ensures forall c :: c in Cats(s) <==> c in Cats(Reps(s))
    ensures Distinct(Cats(Reps(s)))
    decreases |s|
  {
    if s != [] {
      var t := s[..|s| - 1];
      var p := s[|s| - 1];
      RepsCats(t);
      var r := Reps(t);
      IdsSnoc(r, p);
      if p.category !in Cats(r) {
        DistinctSnoc(Cats(r), p.category);
      }
      forall c | c in Cats(s) ensures c in Cats(Reps(s)) {
        var m :| 0 <= m < |s| && Cats(s)[m] == c;
        if m < |t| {
          assert Cats(t)[m] == c;
        }
      }
      RepsDrawn(s);
      forall c | c in Cats(Reps(s)) ensures c in Cats(s) {
        var m :| 0 <= m < |Reps(s)| && Cats(Reps(s))[m] == c;
        assert Reps(s)[m] in s;
        var k :| 0 <= k < |s| && s[k] == Reps(s)[m];
        assert Cats(s)[k] == c;
      }
    }
  }

  /** With unique input ids the representatives have unique ids. */
  lemma {:induction false} RepsIds(s: seq<Project>)
    requires Distinct(Ids(s))
    ensures Distinct(Ids(Reps(s)))
    decreases |s|
  {
    if s != [] {
      var t := s[..|s| - 1];
      var p := s[|s| - 1];
      IdsPrefix(s, |s| - 1);
      DistinctPrefix(Ids(s), |s| - 1);
      RepsIds(t);
      var r := Reps(t);
      if p.category !in Cats(r) {
        IdsSnoc(r, p);
        RepsDrawn(t);
        IdsOfDrawn(r, t);
        assert p.id !in Ids(t) by {
          forall m | 0 <= m < |t| ensures Ids(t)[m] != p.id {
            assert Ids(s)[m] != Ids(s)[|s| - 1];
          }
        }
        DistinctSnoc(Ids(r), p.id);
      }
    }
  }

  lemma RepsFacts(s: seq<Project>)
    ensures forall p :: p in Reps(s) ==> p in s
    ensures forall c :: c in Cats(s) <==> c in Cats(Reps(s))
    ensures Distinct(Cats(Reps(s)))
    ensures Distinct(Ids(s)) ==> Distinct(Ids(Reps(s)))
  {
    RepsDrawn(s);
    RepsCats(s);
    if Distinct(Ids(s)) {
      RepsIds(s);
    }
  }

  /** Pass one picks exactly the first `limit` category representatives. */
  lemma {:induction false} PassOneIsReps(s: seq<Project>, limit: int)
    ensures PassOne(s, limit) == Reps(s)[..Clamp(limit, |Reps(s)|)]
    decreases |s|
  {
    if s != [] {
      var t := s[..|s| - 1];
      var p := s[|s| - 1];
      PassOneIsReps(t, limit);
      var r := Reps(t);
      var c := Clamp(limit, |r|);
      if c < |r| {
        assert PassOne(t, limit) == r[..c] && |r[..c]| >= limit;
        assert Reps(s)[..Clamp(limit, |Reps(s)|)] == r[..c];
      } else {
        assert PassOne(t, limit) == r;
      }
    }
  }

  lemma {:induction false} FillFacts(s: seq<Project>, start: seq<Project>, limit: int)
    ensures |start| <= |Fill(s, start, limit)| && Fill(s, start, limit)[..|start|] == start
    ensures |Fill(s, start, limit)| <= Max(limit, |start|)
    ensures forall p :: p in Fill(s, start, limit) ==> p in start || p in s
    ensures Distinct(Ids(start)) ==> Distinct(Ids(Fill(s, start, limit)))
    decreases |s|
  {
    if s != [] {
      var t := s[..|s| - 1];
      var p := s[|s| - 1];
      FillFacts(t, start, limit);
      var r := Fill(t, start, limit);
      assert s == t + [p];
      if !(|r| >= limit || p.id in Ids(r)) {
        assert Ids(r + [p]) == Ids(r) + [p.id];
        assert (r + [p])[..|start|] == r[..|start|];
      }
    }
  }

  /** Pass two that ends under the limit has taken (the id of) every project. */
  lemma {:induction false} FillCovers(s: seq<Project>, start: seq<Project>, limit: int)
    ensures |Fill(s, start, limit)| < limit ==> forall p :: p in s ==> p.id in Ids(Fill(s, start, limit))
    decreases |s|
  {
    if s != [] {
      var t := s[..|s| - 1];
      var p := s[|s| - 1];
      FillCovers(t, start, limit);
      var r := Fill(t, start, limit);
      assert s == t + [p];
      var f := Fill(s, start, limit);
      if |f| < limit {
        assert f == r || f == r + [p];
        assert |r| <= |f|;
        forall x | x in s ensures x.id in Ids(f) {
          if x in t {
            var m :| 0 <= m < |r| && Ids(r)[m] == x.id;
            assert Ids(f)[m] == x.id;
          } else {
            assert x == p;
            if p.id in Ids(r) {
              var m :| 0 <= m < |r| && Ids(r)[m] == p.id;
              assert Ids(f)[m] == p.id;
            } else {
              assert Ids(f)[|f| - 1] == p.id;
            }
          }
        }
      }
    }
  }

  /**
   * With distinct ids, the selection repeats no id and holds
   * `min(limit, |all|)` projects, all of them taken from `all`.
   */
  lemma SelectSize(all: seq<Project>, limit: int)
    requires Distinct(Ids(all))
    ensures Distinct(Ids(Select(all, limit)))
    ensures |Select(all, limit)| == Clamp(limit, |all|)
    ensures forall p :: p in Select(all, limit) ==> p in all
  {
    var first := PassOne(all, limit);
    var sel := Select(all, limit);
    PassOneIsReps(all, limit);
    RepsFacts(all);
    var reps := Reps(all);
    assert Distinct(Ids(first)) by {
      forall i, j | 0 <= i < j < |first| ensures Ids(first)[i] != Ids(first)[j] {
        assert Ids(reps)[i] != Ids(reps)[j];
      }
    }
    assert forall p :: p in first ==> p in all by {
      forall p | p in first ensures p in all {
        var m :| 0 <= m < |first| && first[m] == p;
        assert reps[m] == p;
      }
    }
    FillFacts(all, first, limit);
    FillCovers(all, first, limit);
    if limit <= 0 {
      assert first == [];
    } else {
      assert |first| <= limit;
      var ids := Elems(Ids(sel));
      var allIds := Elems(Ids(all));
      DistinctCard(Ids(sel));
      DistinctCard(Ids(all));
      assert ids <= allIds by {
        forall x | x in ids ensures x in allIds {
          var m :| 0 <= m < |sel| && Ids(sel)[m] == x;
          assert sel[m] in all;
          var n :| 0 <= n < |all| && all[n] == sel[m];
          assert Ids(all)[n] == x;
        }
      }
      SubsetCard(ids, allIds);
      if |sel| < limit {
        assert allIds <= ids by {
          forall x | x in allIds ensures x in ids {
            var n :| 0 <= n < |all| && Ids(all)[n] == x;
            assert all[n] in all;
          }
        }
        SubsetCard(allIds, ids);
      }
    }
  }

  /**
   * When there are no more categories than the limit, every category is
   * represented, and the representatives come first, in input order.
   */
  lemma CategoriesFirst(all: seq<Project>, limit: int)
    requires |Elems(Cats(all))| <= limit
    ensures |Reps(all)| <= |Select(all, limit)|
    ensures Reps(all) == Select(all, limit)[..|Reps(all)|]
    ensures forall c :: c in Cats(all) ==> c in Cats(Select(all, limit))
  {
    RepsFacts(all);
    PassOneIsReps(all, Max(limit, 0));
    var reps := Reps(all);
    DistinctCard(Cats(reps));
    assert Elems(Cats(reps)) == Elems(Cats(all));
    assert PassOne(all, limit) == reps;
    FillFacts(all, reps, limit);
    var sel := Select(all, limit);
    forall c | c in Cats(all) ensures c in Cats(sel) {
      var m :| 0 <= m < |reps| && Cats(reps)[m] == c;
      assert Cats(sel)[m] == c;
    }
  }

  // ------------------------------------------------------------- endpoint

  /** The endpoint's answer: the chosen projects and their count, or 500 when a query throws. */
  datatype Response = Chosen(projects: seq<Listed>, count: nat) | ServerError

  /**
   * The endpoint: the limit, the two queries, the selection and the
   * formatting of each chosen project (null counts become 0). Each query's
   * table is `Err` when `findMany` throws; the second query runs only when
   * the featured projects fall short of the limit.
   */
  method Get(limitParam: Option<int>, byFeatured: Result<seq<Project>, DbError>,
             byNewest: Result<seq<Project>, DbError>)
    returns (r: Response)
    ensures byFeatured.Err? ==> r == ServerError
    ensures byFeatured.Ok? && byNewest.Err? &&
            |Query(byFeatured.value, EffectiveLimit(limitParam), true, [])| < EffectiveLimit(limitParam)
            ==> r == ServerError
    ensures byFeatured.Ok? && byNewest.Ok? ==>
            var limit := EffectiveLimit(limitParam);
            var chosen := Select(Candidates(byFeatured.value, byNewest.value, limit), limit);
            r.Chosen? && |r.projects| == |chosen| == r.count &&
            forall k :: 0 <= k < |chosen| ==> r.projects[k] == Format(chosen[k])
    ensures byFeatured.Ok? &&
            |Query(byFeatured.value, EffectiveLimit(limitParam), true, [])| >= EffectiveLimit(limitParam) ==>
            var limit := EffectiveLimit(limitParam);
            var chosen := Select(Query(byFeatured.value, limit, true, []), limit);
            r.Chosen? && |r.projects| == |chosen| == r.count &&
            forall k :: 0 <= k < |chosen| ==> r.projects[k] == Format(chosen[k])
  {
    var limit := EffectiveLimit(limitParam);
    if byFeatured.Err? {
      r := ServerError;
    } else {
      var featured := Query(byFeatured.value, limit, true, []);
      if |featured| < limit && byNewest.Err? {
        r := ServerError;
      } else {
        var all := featured;
        if |featured| < limit {
          all := featured + Query(byNewest.value, limit - |featured|, false, Ids(featured));
        }
        assert byNewest.Ok? ==> all == Candidates(byFeatured.value, byNewest.value, limit);
        assert |featured| >= limit ==> all == Query(byFeatured.value, limit, true, []);
        var chosen := Diversify(all, limit);
        var projects := seq(|chosen|, k requires 0 <= k < |chosen| => Format(chosen[k]));
        assert forall k :: 0 <= k < |chosen| ==> projects[k] == Format(chosen[k]);
        r := Chosen(projects, |projects|);
      }
    }
  }


  /**
   * With ids unique in the project table, the response repeats no project
   * and holds `min(limit, number of candidates)` of them, never more than 20.
   */
  lemma ResponseSize(limitParam: Option<int>, byFeatured: seq<Project>, byNewest: seq<Project>)
    requires Distinct(Ids(byFeatured)) && Distinct(Ids(byNewest))
    ensures var limit := EffectiveLimit(limitParam);
            var all := Candidates(byFeatured, byNewest, limit);
            var chosen := Select(all, limit);
            && Distinct(Ids(chosen))
            && |chosen| == Clamp(limit, |all|)
            && |chosen| <= MaxLimit
  {
    var limit := EffectiveLimit(limitParam);
    CandidatesDistinct(byFeatured, byNewest, limit);
    SelectSize(Candidates(byFeatured, byNewest, limit), limit);
  }
}

=== FILE: health.dfy ===
/**
 * The health-check endpoint: three checks (database, image CDN settings,
 * required environment variables), an overall status derived from which of
 * them failed, an HTTP status derived from that, and the redaction of
 * details for anonymous callers in production.
 *
 * The environment is a map from variable name to value; the database probe's
 * outcome, the memory figures and the uptime are inputs.
 */
module Health {
  import opened Common

  /** The process environment. */
  type Env = map<string, string>

  /** `process.env[name]` is truthy. */
  predicate IsSet(env: Env, name: string) {
    name in env && env[name] != ""
  }

  function Lookup(env: Env, name: string): Option<string> {
    if name in env then Some(env[name]) else None
  }

  const RequiredEnvVars: seq<string> := ["JWT_SECRET", "NEXTAUTH_SECRET", "DATABASE_URL"]

  datatype Verdict = Pass | Fail
  datatype Status = Healthy | Degraded | Unhealthy

  /** One entry of `checks`; the messages and durations are left out. */
  datatype Check = Check(name: string, verdict: Verdict)

  /** The database probe: connected with a latency, or failed with a message. */
  datatype Database = Connected(latency: nat) | DbError(message: string)

  datatype Cloudinary = Cloudinary(configured: bool, cloudName: Option<string>)

  datatype Memory = Memory(used: int, total: int, percentage: int)

  datatype Report = Report(status: Status, version: string, environment: string,
                           database: Database, cloudinary: Cloudinary,
                           memory: Option<Memory>, uptime: int, checks: Option<seq<Check>>)

  /** `checkCloudinary`: configured, with its cloud name, iff name, key and secret are all set. */
  function CheckCloudinary(env: Env): (c: Cloudinary)
    ensures c.configured <==>
      IsSet(env, "CLOUDINARY_CLOUD_NAME") && IsSet(env, "CLOUDINARY_API_KEY") &&
      IsSet(env, "CLOUDINARY_API_SECRET")
    ensures c.configured ==> c.cloudName == Some(env["CLOUDINARY_CLOUD_NAME"])
    ensures !c.configured ==> c.cloudName.None?
  {
    if IsSet(env, "CLOUDINARY_CLOUD_NAME") && IsSet(env, "CLOUDINARY_API_KEY") &&
       IsSet(env, "CLOUDINARY_API_SECRET")
    then Cloudinary(true, Some(env["CLOUDINARY_CLOUD_NAME"]))
    else Cloudinary(false, None)
  }

  /** The required variables that are not set, in the order they are listed. */
  function Missing(env: Env, names: seq<string>): (r: seq<string>)
    ensures forall x :: x in r <==> x in names && !IsSet(env, x)
    ensures |r| <= |names|
  {
    if names == [] then []
    else if IsSet(env, names[0]) then Missing(env, names[1..])
    else [names[0]] + Missing(env, names[1..])
  }

  /** `requiredEnvVars.filter(v => !process.env[v])`: the unset names, in order and as often as listed. */
  lemma {:induction false} MissingFilters(env: Env, names: seq<string>)
    ensures Missing(env, names) == Filter(names, x => !IsSet(env, x))
  {
    if names != [] {
      MissingFilters(env, names[1..]);
    }
  }

  function Failed(checks: seq<Check>): (r: seq<Check>)
    ensures forall c :: c in r <==> c in checks && c.verdict == Fail
  {
    if checks == [] then []
    else if checks[0].verdict == Fail then [checks[0]] + Failed(checks[1..])
    else Failed(checks[1..])
  }

  /** Among three checks named as `runHealthChecks` names them, the failed ones name the database iff the first failed. */
  lemma FailedOfChecks(checks: seq<Check>)
    requires |checks| == 3
    requires checks[0].name == "database" && checks[1].name == "cloudinary" && checks[2].name == "environment"
    ensures |Failed(checks)| > 0 <==> exists k :: 0 <= k < 3 && checks[k].verdict == Fail
    ensures (exists k :: 0 <= k < |Failed(checks)| && Failed(checks)[k].name == "database") <==>
            checks[0].verdict == Fail
  {
    var f := Failed(checks);
    assert checks[0] in checks && checks[1] in checks && checks[2] in checks;
    assert "cloudinary" != "database" && "environment" != "database";
    if checks[0].verdict == Fail {
      assert checks[0] in f;
      var k :| 0 <= k < |f| && f[k] == checks[0];
    }
    forall k | 0 <= k < |f| && f[k].name == "database"
      ensures checks[0].verdict == Fail
    {
      assert f[k] in f;
      assert f[k] in checks;
    }
    if exists k :: 0 <= k < 3 && checks[k].verdict == Fail {
      var k :| 0 <= k < 3 && checks[k].verdict == Fail;
      assert checks[k] in f;
    }
    if |f| > 0 {
      assert f[0] in f;
    }
  }

  /** The three checks `runHealthChecks` pushes, in order: database, image CDN, environment. */
  function HealthChecks(env: Env, database: Database): (checks: seq<Check>)
    ensures |checks| == 3
    ensures checks[0].name == "database" && checks[1].name == "cloudinary" && checks[2].name == "environment"
    ensures checks[0].verdict == Pass <==> database.Connected?
    ensures checks[1].verdict == Pass <==> CheckCloudinary(env).configured
    ensures checks[2].verdict == Pass <==> Missing(env, RequiredEnvVars) == []
  {
    [Check("database", if database.Connected? then Pass else Fail),
     Check("cloudinary", if CheckCloudinary(env).configured then Pass else Fail),
     Check("environment", if Missing(env, RequiredEnvVars) == [] then Pass else Fail)]
  }

  /**
   * The report the health check is meant to produce: a failed database makes
   * the system unhealthy, any other failed check degraded; the version and
   * environment fall back to `1.0.0` and `unknown`.
   */
  function HealthReport(env: Env, database: Database, memory: Memory, uptime: int): (r: Report)
    ensures r.checks == Some(HealthChecks(env, database))
    ensures r.status == Unhealthy <==> database.DbError?
    ensures r.status == Healthy <==>
      database.Connected? && CheckCloudinary(env).configured && Missing(env, RequiredEnvVars) == []
    ensures r.database == database && r.cloudinary == CheckCloudinary(env)
    ensures r.memory == Some(memory) && r.uptime == uptime
    ensures r.version == (if IsSet(env, "npm_package_version") then env["npm_package_version"] else "1.0.0")
    ensures r.environment == (if IsSet(env, "NODE_ENV") then env["NODE_ENV"] else "unknown")
  {
    var status :=
      if database.DbError? then Unhealthy
      else if CheckCloudinary(env).configured && Missing(env, RequiredEnvVars) == [] then Healthy
      else Degraded;
    Report(status,
           if IsSet(env, "npm_package_version") then env["npm_package_version"] else "1.0.0",
           if IsSet(env, "NODE_ENV") then env["NODE_ENV"] else "unknown",
           database, CheckCloudinary(env), Some(memory), uptime, Some(HealthChecks(env, database)))
  }

  /**
   * `runHealthChecks`: the three checks are pushed in order, then the status
   * starts healthy and is lowered to unhealthy when the database check
   * failed, else to degraded when any check failed.
   */
  method RunHealthChecks(env: Env, database: Database, memory: Memory, uptime: int)
    returns (report: Report)
    ensures report.checks.Some? && |report.checks.value| == 3
    ensures report.checks.value[0] == Check("database", if database.Connected? then Pass else Fail)
    ensures report.checks.value[1] == Check("cloudinary", if CheckCloudinary(env).configured then Pass else Fail)
    ensures report.checks.value[2] ==
            Check("environment", if Missing(env, RequiredEnvVars) == [] then Pass else Fail)
    ensures report.status == Healthy <==>
      database.Connected? && CheckCloudinary(env).configured && Missing(env, RequiredEnvVars) == []
    ensures report.status == Unhealthy <==> database.DbError?
    ensures report.database == database && report.cloudinary == CheckCloudinary(env)
    ensures report.memory == Some(memory) && report.uptime == uptime
    ensures report == HealthReport(env, database, memory, uptime)
  {
    var checks: seq<Check> := [];
    checks := checks + [Check("database", if database.Connected? then Pass else Fail)];
    var cloudinary := CheckCloudinary(env);
    checks := checks + [Check("cloudinary", if cloudinary.configured then Pass else Fail)];
    var missing := Missing(env, RequiredEnvVars);
    checks := checks + [Check("environment", if |missing| == 0 then Pass else Fail)];

    assert checks == HealthChecks(env, database);
    var failed := Failed(checks);
    FailedOfChecks(checks);
    var status := Healthy;
    if |failed| > 0 {
      if exists k :: 0 <= k < |failed| && failed[k].name == "database" {
        status := Unhealthy;
      } else {
        status := Degraded;
      }
    }
    assert status == HealthReport(env, database, memory, uptime).status;
    var version := if IsSet(env, "npm_package_version") then env["npm_package_version"] else "1.0.0";
    var environment := if IsSet(env, "NODE_ENV") then env["NODE_ENV"] else "unknown";
    report := Report(status, version, environment, database, cloudinary, Some(memory), uptime, Some(checks));
  }

  /** `Bearer <token>` in the header, or development mode, unlocks the details. */
  function IsAdmin(env: Env, authorization: Option<string>): bool {
    BearerMatches(authorization, Lookup(env, "HEALTH_CHECK_TOKEN")) ||
    Lookup(env, "NODE_ENV") == Some("development")
  }

  /** The same check with the header compared against the template as the source builds it. */
  function IsAdminAsWritten(env: Env, authorization: Option<string>): bool {
    BearerMatchesAsWritten(authorization, Lookup(env, "HEALTH_CHECK_TOKEN")) ||
    Lookup(env, "NODE_ENV") == Some("development")
  }

  /** In production with no token configured, the header `Bearer undefined` unlocks the details as written. */
  lemma UndefinedTokenUnlocks()
    ensures var env: Env := map["NODE_ENV" := "production"];
            IsAdminAsWritten(env, Some("Bearer undefined")) && !IsAdmin(env, Some("Bearer undefined"))
  {
    var env: Env := map["NODE_ENV" := "production"];
    assert "HEALTH_CHECK_TOKEN" != "NODE_ENV";
    assert Lookup(env, "HEALTH_CHECK_TOKEN") == None;
    assert "production" != "development";
    UndefinedTokenMatches();
  }

  /** Without a configured token only development mode unlocks the details. */
  lemma IsAdminNeedsToken(env: Env, authorization: Option<string>)
    requires !IsSet(env, "HEALTH_CHECK_TOKEN")
    ensures IsAdmin(env, authorization) <==> Lookup(env, "NODE_ENV") == Some("development")
  {
  }

  /** Anonymous production callers lose the cloud name, the memory figures and the checks. */
  function Redact(report: Report, production: bool, admin: bool): (r: Report)
    ensures production && !admin ==>
      r == report.(cloudinary := report.cloudinary.(cloudName := None), memory := None, checks := None)
    ensures !(production && !admin) ==> r == report
    ensures r.status == report.status && r.database == report.database
  {
    if production && !admin then
      report.(cloudinary := report.cloudinary.(cloudName := None), memory := None, checks := None)
    else report
  }

  /** 503 for an unhealthy system; healthy and degraded both answer 200. */
  function StatusCode(s: Status): (code: int)
    ensures code == 503 <==> s == Unhealthy
    ensures code != 503 ==> code == 200
  {
    if s == Unhealthy then 503 else 200
  }

  /** `GET` once the caller is known to be an administrator or not: run the checks, redact, pick the status. */
  method Respond(env: Env, admin: bool, database: Database, memory: Memory, uptime: int)
    returns (code: int, body: Report)
    ensures code == 503 <==> database.DbError?
    ensures code != 503 ==> code == 200
    ensures Lookup(env, "NODE_ENV") == Some("production") && !admin ==>
      body.memory.None? && body.checks.None? && body.cloudinary.cloudName.None?
    ensures !(Lookup(env, "NODE_ENV") == Some("production") && !admin) ==>
      body.memory == Some(memory) && body.checks.Some? && body.cloudinary == CheckCloudinary(env)
    ensures body == Redact(HealthReport(env, database, memory, uptime),
                           Lookup(env, "NODE_ENV") == Some("production"), admin)
  {
    var report := RunHealthChecks(env, database, memory, uptime);
    body := Redact(report, Lookup(env, "NODE_ENV") == Some("production"), admin);
    code := StatusCode(body.status);
  }

  /** `GET` with the intended token comparison. */
  method Get(env: Env, authorization: Option<string>, database: Database, memory: Memory, uptime: int)
    returns (code: int, body: Report)
    ensures code == 503 <==> database.DbError?
    ensures code != 503 ==> code == 200
    ensures Lookup(env, "NODE_ENV") == Some("production") && !IsAdmin(env, authorization) ==>
      body.memory.None? && body.checks.None? && body.cloudinary.cloudName.None?
    ensures !(Lookup(env, "NODE_ENV") == Some("production") && !IsAdmin(env, authorization)) ==>
      body.memory == Some(memory) && body.checks.Some? && body.cloudinary == CheckCloudinary(env)
    ensures body == Redact(HealthReport(env, database, memory, uptime),
                           Lookup(env, "NODE_ENV") == Some("production"), IsAdmin(env, authorization))
  {
    code, body := Respond(env, IsAdmin(env, authorization), database, memory, uptime);
  }

  /** `GET` as written: the header is compared with the template, so `Bearer undefined` passes without a token. */
  method GetAsWritten(env: Env, authorization: Option<string>, database: Database, memory: Memory, uptime: int)
    returns (code: int, body: Report)
    ensures code == 503 <==> database.DbError?
    ensures code != 503 ==> code == 200
    ensures Lookup(env, "NODE_ENV") == Some("production") && !IsAdminAsWritten(env, authorization) ==>
      body.memory.None? && body.checks.None? && body.cloudinary.cloudName.None?
    ensures !(Lookup(env, "NODE_ENV") == Some("production") && !IsAdminAsWritten(env, authorization)) ==>
      body.memory == Some(memory) && body.checks.Some? && body.cloudinary == CheckCloudinary(env)
    ensures body == Redact(HealthReport(env, database, memory, uptime),
                           Lookup(env, "NODE_ENV") == Some("production"), IsAdminAsWritten(env, authorization))
  {
    code, body := Respond(env, IsAdminAsWritten(env, authorization), database, memory, uptime);
  }
}

=== FILE: middleware.dfy ===
/**
 * The request gate that runs before every page and API route: a fixed-window
 * rate limiter per client IP, an occasional sweep of stale limiter entries,
 * the `www.` redirect, and the decision whether a path needs the admin
 * cookies, is let through for diagnosis, or is refused / sent to `/login`.
 *
 * The clock (`Date.now()`) is the parameter `now`; the one-in-a-hundred coin
 * that triggers the sweep is the parameter `sweep`.
 */
module Middleware {
  import opened Common
  import opened Strings

  const RateLimitWindow: int := 60 * 1000
  const RateLimitMaxRequests: int := 60
  /** Records older than five windows are dropped by the sweep. */
  const SweepAge: int := RateLimitWindow * 5

  /** The limiter's entry for one IP: requests counted in the window that began at `timestamp`. */
  datatype Record = Record(count: int, timestamp: int)

  /**
   * One call of the limiter for an IP whose entry is `rec`: the entry
   * afterwards and whether the request is allowed. No entry, or a window
   * that ended strictly more than 60000 ms ago, starts a new window with
   * count 1; otherwise the count goes up by one, the window start stays,
   * and the request passes iff the new count is at most 60.
   */
  function Admit(rec: Option<Record>, now: int): (r: (Record, bool))
    ensures r.1 <==> r.0.count <= RateLimitMaxRequests
    ensures now - r.0.timestamp <= RateLimitWindow
    ensures (rec.None? || rec.value.count >= 1) ==> r.0.count >= 1
    ensures rec.Some? && now - rec.value.timestamp <= RateLimitWindow ==>
              r.0 == Record(rec.value.count + 1, rec.value.timestamp)
    ensures (rec.None? || now - rec.value.timestamp > RateLimitWindow) ==> r.0 == Record(1, now) && r.1
  {
    match rec
    case None => (Record(1, now), true)
    case Some(old_) =>
      if now - old_.timestamp > RateLimitWindow then (Record(1, now), true)
      else
        var next := Record(old_.count + 1, old_.timestamp);
        (next, next.count <= RateLimitMaxRequests)
  }

  /** A series of requests from one IP at the given times: the final entry and each verdict. */
  function Replay(rec: Option<Record>, times: seq<int>): (Option<Record>, seq<bool>)
    decreases |times|
  {
    if times == [] then (rec, [])
    else
      var (next, ok) := Admit(rec, times[0]);
      var (last, verdicts) := Replay(Some(next), times[1..]);
      (last, [ok] + verdicts)
  }

  /**
   * Inside one window the count only grows, the window start never moves,
   * and a request is allowed iff the count it brings is at most 60:
   * refused requests are counted too.
   */
  lemma {:induction false} ReplayInsideWindow(rec: Record, times: seq<int>)
    requires forall k :: 0 <= k < |times| ==> times[k] - rec.timestamp <= RateLimitWindow
    ensures Replay(Some(rec), times).0 == Some(Record(rec.count + |times|, rec.timestamp))
    ensures |Replay(Some(rec), times).1| == |times|
    ensures forall k :: 0 <= k < |times| ==>
              (Replay(Some(rec), times).1[k] <==> rec.count + k + 1 <= RateLimitMaxRequests)
    decreases |times|
  {
    if times != [] {
      var next := Record(rec.count + 1, rec.timestamp);
      assert Admit(Some(rec), times[0]) == (next, next.count <= RateLimitMaxRequests);
      ReplayInsideWindow(next, times[1..]);
      var verdicts := Replay(Some(next), times[1..]).1;
      assert Replay(Some(rec), times).1 == [next.count <= RateLimitMaxRequests] + verdicts;
      forall k | 1 <= k < |times|
        ensures Replay(Some(rec), times).1[k] <==> rec.count + k + 1 <= RateLimitMaxRequests
      {
        assert times[1..][k - 1] == times[k];
      }
    }
  }

  /**
   * A burst from a fresh IP whose requests all fall within 60000 ms of the
   * first: exactly the first 60 pass, every later one is refused.
   */
  lemma FirstSixtyPass(start: int, later: seq<int>)
    requires forall k :: 0 <= k < |later| ==> later[k] - start <= RateLimitWindow
    ensures |Replay(None, [start] + later).1| == 1 + |later|
    ensures forall k :: 0 <= k <= |later| ==> (Replay(None, [start] + later).1[k] <==> k < RateLimitMaxRequests)
  {
    var times := [start] + later;
    assert times[1..] == later;
    ReplayInsideWindow(Record(1, start), later);
  }

  /** The limiter's map of entries, keyed by client IP. */
  class RateLimiter {
    var records: map<string, Record>

    /** Every entry has counted at least one request. */
    ghost predicate Valid()
      reads this
    {
      forall ip :: ip in records ==> records[ip].count >= 1
    }

    constructor ()
      ensures Valid() && records == map[]
    {
      records := map[];
    }

    function Lookup(ip: string): Option<Record>
      reads this
    {
      if ip in records then Some(records[ip]) else None
    }

    /** `checkRateLimit`: updates only the entry of `ip`, as `Admit` says. */
    method CheckRateLimit(ip: string, now: int) returns (allowed: bool)
      requires Valid()
      modifies this
      ensures Valid()
      ensures records == old(records)[ip := Admit(old(Lookup(ip)), now).0]
      ensures allowed == Admit(old(Lookup(ip)), now).1
      ensures forall other :: other != ip ==>
                (other in records <==> other in old(records)) &&
                (other in records ==> records[other] == old(records)[other])
    {
      if ip !in records {
        records := records[ip := Record(1, now)];
        return true;
      }
      var record := records[ip];
      if now - record.timestamp > RateLimitWindow {
        records := records[ip := Record(1, now)];
        return true;
      }
      records := records[ip := record.(count := record.count + 1)];
      allowed := records[ip].count <= RateLimitMaxRequests;
    }

    /** The sweep: deletes exactly the entries whose window began more than five windows ago. */
    method SweepStale(now: int)
      requires Valid()
      modifies this
      ensures Valid()
      ensures records == Swept(old(records), now)
    {
      var pending := records.Keys;
      while pending != {}
        invariant pending <= old(records).Keys
        invariant forall ip :: ip in records <==>
                    ip in old(records) && (ip in pending || now - old(records)[ip].timestamp <= SweepAge)
        invariant forall ip :: ip in records ==> records[ip] == old(records)[ip]
        invariant Valid()
        decreases pending
      {
        var ip :| ip in pending;
        if now - records[ip].timestamp > SweepAge {
          records := records - {ip};
        }
        pending := pending - {ip};
      }
      assert records.Keys == Swept(old(records), now).Keys;
    }

    /**
     * The whole `middleware` function: a refused request gets 429 before
     * anything else; otherwise the route decision of `Route` applies, and an
     * API request that goes through carries the rate headers, whose
     * remaining count is always between 0 and 59.
     */
    method Handle(req: Request, now: int, sweep: bool) returns (out: Outcome)
      requires Valid()
      modifies this
      ensures Valid()
      ensures var ip := ClientIp(req);
              var (rec, ok) := Admit(old(Lookup(ip)), now);
              && (out.Limited? <==> !ok)
              && (out.Limited? ==> out.resetAt == now + RateLimitWindow)
              && (!ok || !sweep ==> records == old(records)[ip := rec])
              && (ok && sweep ==> records == Swept(old(records)[ip := rec], now))
              && (out.Routed? ==>
                    && out.gate == Route(req)
                    && (out.rateHeaders.Some? <==> out.gate.Proceed? && IsApiRoute(req.path))
                    && (out.rateHeaders.Some? ==>
                          out.rateHeaders.value == RateHeaders(RateLimitMaxRequests,
                                                               RateLimitMaxRequests - rec.count,
                                                               rec.timestamp + RateLimitWindow)))
      ensures out.Routed? && out.rateHeaders.Some? ==> 0 <= out.rateHeaders.value.remaining < RateLimitMaxRequests
    {
      var ip := ClientIp(req);
      var allowed := CheckRateLimit(ip, now);
      if !allowed {
        return Limited(now + RateLimitWindow);
      }
      ghost var admitted := records;
      if sweep {
        SweepStale(now);
      }
      var gate := Route(req);
      var headers: Option<RateHeaders> := None;
      if gate.Proceed? && IsApiRoute(req.path) {
        assert ip in records by {
          assert now - admitted[ip].timestamp <= RateLimitWindow;
        }
        var record := records[ip];
        headers := Some(RateHeaders(RateLimitMaxRequests, RateLimitMaxRequests - record.count,
                                    record.timestamp + RateLimitWindow));
      }
      out := Routed(gate, headers);
    }
  }

  /** What the sweep keeps of a map of entries. */
  function Swept(m: map<string, Record>, now: int): map<string, Record> {
    map ip | ip in m && now - m[ip].timestamp <= SweepAge :: m[ip]
  }

  /** The parts of an incoming request that the gate reads. `None` is a missing header or cookie. */
  datatype Request = Request(
    path: string,
    verb: string,
    ip: Option<string>,
    forwardedFor: Option<string>,
    realIp: Option<string>,
    host: Option<string>,
    debugHeader: Option<string>,
    loggedInCookie: Option<string>,
    adminIdCookie: Option<string>)

  datatype RateHeaders = RateHeaders(limit: int, remaining: int, resetAt: int)

  /** The route decision once the limiter has let the request through. */
  datatype Gate =
    | ToApex(host: string)        // 301 to the host without its `www.`
    | LoginPage                   // `/login` itself, served without any check
    | Unauthorized                // 401 JSON for an API path
    | ToLogin(callbackUrl: string) // redirect to `/login?callbackUrl=<path>`
    | Proceed                     // handed on to the route

  datatype Outcome =
    | Limited(resetAt: int)                               // 429, `Retry-After: 60`, remaining 0
    | Routed(gate: Gate, rateHeaders: Option<RateHeaders>)

  /** `request.ip`, else the first entry of `x-forwarded-for`, else `x-real-ip`, else `"unknown"`. */
  function ClientIp(req: Request): (ip: string)
    ensures ip != ""
    ensures Truthy(req.ip) ==> ip == req.ip.value
    ensures ip == "unknown" <== !Truthy(req.ip) && !Truthy(req.realIp) &&
                                (req.forwardedFor.None? || StartsWith(req.forwardedFor.value, ","))
    ensures !Truthy(req.ip) && req.forwardedFor.Some? && BeforeFirst(req.forwardedFor.value, ',') != "" ==>
              ip == BeforeFirst(req.forwardedFor.value, ',')
    ensures !Truthy(req.ip) && (req.forwardedFor.None? || BeforeFirst(req.forwardedFor.value, ',') == "") ==>
              ip == (if Truthy(req.realIp) then req.realIp.value else "unknown")
  {
    if Truthy(req.ip) then req.ip.value
    else if req.forwardedFor.Some? && BeforeFirst(req.forwardedFor.value, ',') != "" then
      BeforeFirst(req.forwardedFor.value, ',')
    else if Truthy(req.realIp) then req.realIp.value
    else "unknown"
  }

  const ProtectedPaths: seq<string> := ["/admin"]
  const ProtectedApiPaths: seq<string> := ["/api/auth/change-password", "/api/upload"]
  const WriteProtectedApiPaths: seq<string> := ["/api/projects"]
  const WriteMethods: seq<string> := ["POST", "PUT", "DELETE", "PATCH"]

  /** Declared as needing no authentication, but never read by the gate. */
  const PublicPaths: seq<string> := [
    "/", "/about", "/contact", "/portfolio", "/services", "/faq", "/privacy",
    "/terms", "/quote", "/login", "/simple-login", "/fix-login", "/clear-cookies",
    "/test-dashboard", "/admin-panel", "/simple-dashboard", "/api/health-check",
    "/api/auth/login", "/api/auth/logout", "/api/auth/verify", "/api/db-status",
    "/api/error-report", "/api/reviews", "/api/setup-admin", "/api/debug-cookies",
    "/api/auth/bypass", "/api/auth/clear-cookies", "/api/auth/new-login",
    "/api/auth/check-session", "/api/auth/new-logout", "/api/simple-login",
    "/api/check-login", "/api/debug-admin", "/api/debug-middleware", "/test-new-login"]

  predicate StartsWithAny(path: string, prefixes: seq<string>) {
    exists p :: p in prefixes && StartsWith(path, p)
  }

  predicate IsApiRoute(path: string) {
    StartsWith(path, "/api")
  }

  /** Prefix matches only: `/admin-panel` is as protected as `/admin`. */
  predicate NeedsAuth(path: string, verb: string) {
    || StartsWithAny(path, ProtectedPaths)
    || StartsWithAny(path, ProtectedApiPaths)
    || (StartsWithAny(path, WriteProtectedApiPaths) && verb in WriteMethods)
  }

  /** The diagnosis bypass: the `x-debug-mode: true` header, `debug` anywhere in the path, or exactly `/dashboard`. */
  predicate IsDebugMode(req: Request) {
    req.debugHeader == Some("true") || Contains(req.path, "debug") || req.path == "/dashboard"
  }

  /** `checkAuth`: cookie `logged-in` is `yes` and cookie `admin-id` is non-empty. */
  predicate IsAuthenticated(req: Request) {
    req.loggedInCookie == Some("yes") && Truthy(req.adminIdCookie)
  }

  predicate FromWww(req: Request) {
    req.host.Some? && StartsWith(req.host.value, "www.")
  }

  /**
   * The decision table after the limiter. A protected path reached without
   * the cookies and outside the diagnosis bypass never proceeds: API paths
   * get 401, any other path is sent to `/login` with itself as callback.
   */
  function Route(req: Request): (g: Gate)
    ensures FromWww(req) <==> g.ToApex?
    ensures g.LoginPage? <==> !FromWww(req) && req.path == "/login"
    ensures g.Proceed? <==>
              !FromWww(req) && req.path != "/login" &&
              (!NeedsAuth(req.path, req.verb) || IsDebugMode(req) || IsAuthenticated(req))
    ensures g.Unauthorized? <==>
              !FromWww(req) && req.path != "/login" &&
              NeedsAuth(req.path, req.verb) && !IsDebugMode(req) && !IsAuthenticated(req) &&
              IsApiRoute(req.path)
    ensures g.ToLogin? ==> g.callbackUrl == req.path && !IsApiRoute(req.path) &&
                           NeedsAuth(req.path, req.verb) && !IsDebugMode(req) && !IsAuthenticated(req)
  {
    if FromWww(req) then ToApex(ReplaceFirst(req.host.value, "www.", ""))
    else if req.path == "/login" then LoginPage
    else if NeedsAuth(req.path, req.verb) && !IsDebugMode(req) && !IsAuthenticated(req) then
      if IsApiRoute(req.path) then Unauthorized else ToLogin(req.path)
    else Proceed
  }

  /** `/admin-panel` is listed among the public paths, yet the gate protects it like `/admin`. */
  lemma PublicListNotConsulted(verb: string)
    ensures "/admin-panel" in PublicPaths && NeedsAuth("/admin-panel", verb)
  {
    assert StartsWith("/admin-panel", ProtectedPaths[0]);
  }

  /** Reading projects is open; writing them needs the cookies. */
  lemma ProjectsWriteOnlyProtected(suffix: string, verb: string)
    ensures NeedsAuth("/api/projects" + suffix, verb) <==> verb in WriteMethods
  {
    var path := "/api/projects" + suffix;
    assert StartsWith(path, WriteProtectedApiPaths[0]);
    assert path[2] == 'p' && path[5] == 'p';
    forall p | p in ProtectedPaths + ProtectedApiPaths
      ensures !StartsWith(path, p)
    {
      assert |p| > 5 && (p[2] != 'p' || p[5] != 'p');
    }
  }
}

=== FILE: optimizedimage.dfy ===
/**
 * The optimised image component: the rewrite of image-CDN URLs that adds
 * automatic format, quality and cropping, and the small state machine that
 * tracks loading and falls back to a placeholder image on a load error.
 */
module OptimizedImage {
  import opened Strings

  const CdnHost: string := "cloudinary.com"
  const UploadSegment: string := "/upload/"
  const Transformations: string := "f_auto,q_auto:good,c_fill,g_auto/"
  const Placeholder: string := "/images/placeholder.jpg"

  /**
   * `optimizeCloudinaryUrl`: a URL on the CDN gets the transformations
   * inserted after its first `/upload/`; any other URL, and a CDN URL
   * without `/upload/`, is returned unchanged.
   */
  function Optimize(url: string): (r: string)
    ensures !Contains(url, CdnHost) ==> r == url
    ensures !Contains(url, UploadSegment) ==> r == url
    ensures Contains(url, CdnHost) && Contains(url, UploadSegment) ==>
      var i := IndexOf(url, UploadSegment).value;
      r == url[..i] + UploadSegment + Transformations + url[i + |UploadSegment|..]
  {
    if Contains(url, CdnHost) then ReplaceFirst(url, UploadSegment, UploadSegment + Transformations)
    else url
  }

  /**
   * Replacing an occurrence of a pattern that starts and ends with `/`
   * keeps every occurrence of a name without `/` that is longer than the
   * pattern: one lying before the pattern stays in place, one lying after
   * it moves with the tail.
   */
  lemma {:induction false} SlashFreeSurvives(s: string, pat: string, rep: string, name: string, i: int, j: int)
    requires |pat| >= 1 && pat[0] == '/' && pat[|pat| - 1] == '/'
    requires forall k :: 0 <= k < |name| ==> name[k] != '/'
    requires |name| > |pat|
    requires OccursAt(s, pat, i) && OccursAt(s, name, j)
    ensures Contains(s[..i] + rep + s[i + |pat|..], name)
  {
    var r := s[..i] + rep + s[i + |pat|..];
    var n := |name|;
    assert s[i] == s[i..i + |pat|][0] == '/';
    assert s[i + |pat| - 1] == s[i..i + |pat|][|pat| - 1] == '/';
    if j + n <= i {
      assert r[j..j + n] == s[j..j + n];
      ContainsAt(r, name, j);
    } else {
      assert j >= i + |pat|;
      var d := j - |pat| + |rep|;
      assert r[d..d + n] == s[j..j + n];
      ContainsAt(r, name, d);
    }
  }

  /**
   * Replacing the first occurrence of such a pattern keeps such a name, and
   * a replacement that starts with the pattern leaves the pattern in place.
   */
  lemma ReplaceKeeps(s: string, pat: string, rep: string, name: string)
    requires |pat| >= 1 && pat[0] == '/' && pat[|pat| - 1] == '/'
    requires forall k :: 0 <= k < |name| ==> name[k] != '/'
    requires |name| > |pat|
    requires Contains(s, pat) && Contains(s, name)
    requires StartsWith(rep, pat)
    ensures Contains(ReplaceFirst(s, pat, rep), name)
    ensures Contains(ReplaceFirst(s, pat, rep), pat)
  {
    var i := IndexOf(s, pat).value;
    var r := s[..i] + rep + s[i + |pat|..];
    assert r == ReplaceFirst(s, pat, rep);
    assert r[i..i + |pat|] == rep[..|pat|];
    ContainsAt(r, pat, i);
    SlashFreeSurvives(s, pat, rep, name, i, IndexOf(s, name).value);
  }

  /** The rewrite keeps the host name, and a `/upload/` where it inserted one. */
  lemma HostSurvivesRewrite(url: string)
    requires Contains(url, CdnHost) && Contains(url, UploadSegment)
    ensures Contains(Optimize(url), CdnHost)
    ensures Contains(Optimize(url), UploadSegment)
  {
    var p := UploadSegment + Transformations;
    assert StartsWith(p, UploadSegment) by {
      assert p[..|UploadSegment|] == UploadSegment;
    }
    ReplaceKeeps(url, UploadSegment, p, CdnHost);
  }

  /** The rewrite is not idempotent: applied to its own output it inserts a second segment. */
  lemma NotIdempotent(url: string)
    requires Contains(url, CdnHost) && Contains(url, UploadSegment)
    ensures Optimize(Optimize(url)) != Optimize(url)
    ensures |Optimize(Optimize(url))| == |url| + 2 * |Transformations|
  {
    HostSurvivesRewrite(url);
  }

  /** The component's state. */
  datatype View = View(isLoading: bool, hasError: bool, imageSrc: string)

  /** `handleLoad`: loading ends; nothing else changes. */
  function AfterLoad(v: View): (w: View)
    ensures !w.isLoading && w.hasError == v.hasError && w.imageSrc == v.imageSrc
  {
    v.(isLoading := false)
  }

  /**
   * `handleError`: loading ends; the first error switches to the placeholder
   * and clears the error flag, an error on the placeholder sets it.
   */
  function AfterError(v: View): (w: View)
    ensures !w.isLoading && w.imageSrc == Placeholder
    ensures w.hasError <==> v.imageSrc == Placeholder
  {
    if v.imageSrc != Placeholder then View(false, false, Placeholder) else View(false, true, Placeholder)
  }

  /** Two load errors in a row, from any state, end in the error view. */
  lemma TwoErrorsShowError(v: View)
    ensures AfterError(AfterError(v)).hasError
    ensures AfterError(AfterError(v)) == AfterError(AfterError(AfterError(v)))
  {
  }

  /** The component's state as a mutable object, updated by its handlers. */
  class ImageState {
    var isLoading: bool
    var hasError: bool
    var imageSrc: string

    function Current(): View
      reads this
    {
      View(isLoading, hasError, imageSrc)
    }

    /** The initial state: loading, no error, the raw `src`. */
    constructor (src: string)
      ensures Current() == View(true, false, src)
    {
      isLoading := true;
      hasError := false;
      imageSrc := src;
    }

    /** The effect run when `src` changes: the rewrite is applied to the raw `src`, never to the current source. */
    method SourceChanged(src: string)
      modifies this
      ensures Current() == old(Current()).(imageSrc := Optimize(src))
    {
      imageSrc := Optimize(src);
    }

    method HandleLoad()
      modifies this
      ensures Current() == AfterLoad(old(Current()))
    {
      isLoading := false;
    }

    method HandleError()
      modifies this
      ensures Current() == AfterError(old(Current()))
    {
      hasError := true;
      isLoading := false;
      var fallbackUrl := Placeholder;
      if imageSrc != fallbackUrl {
        imageSrc := fallbackUrl;
        hasError := false;
      }
    }
  }
}

=== FILE: projects.dfy ===
/**
 * The project listing and creation endpoint. The listing turns the query
 * parameters into a page window (`skip`/`take`), a filter and a sort-key
 * table, and shapes the rows the database returns; the creation turns the
 * submitted body into one creation record, numbering the media items and
 * filling in their defaults. The database itself is an input: the rows it
 * returns, the total it counts, or the error it raises.
 */
module Projects {
  import opened Common
  import opened Strings

  const DefaultTake: int := 12

  /** Query parameters; `limit` and `page` as `parseInt` reads them. */
  datatype Query = Query(category: Option<string>, featured: Option<string>,
                         limit: Option<int>, page: Option<int>, sort: Option<string>)

  // ---------------------------------------------------------------- paging

  function Take(q: Query): (take: int)
    ensures q.limit.None? ==> take == DefaultTake
    ensures q.limit.Some? ==> take == q.limit.value
  {
    if q.limit.Some? then q.limit.value else DefaultTake
  }

  /** Rows skipped before the requested page: `(page - 1) * take`, or none without a page. */
  function Skip(q: Query): (skip: int)
    ensures q.page.None? ==> skip == 0
    ensures q.page == Some(1) ==> skip == 0
    ensures q.page.Some? && q.page.value >= 1 && Take(q) >= 0 ==> skip >= 0
  {
    if q.page.Some? then (q.page.value - 1) * Take(q) else 0
  }

  /** The rows a page window selects from the full, ordered result. */
  function Window<T>(rows: seq<T>, skip: nat, take: nat): (w: seq<T>)
    ensures |w| == Max(0, Min(take, |rows| - skip))
    ensures forall k :: 0 <= k < |w| ==> w[k] == rows[skip + k]
  {
    if skip >= |rows| then []
    else if skip + take >= |rows| then rows[skip..]
    else rows[skip..skip + take]
  }

  /** The page parameter turned into a query over the same filter, sort and limit. */
  function AtPage(q: Query, p: int): Query {
    q.(page := Some(p))
  }

  /** Consecutive pages start `take` rows apart. */
  lemma NextPageFollows(q: Query, p: int)
    ensures Skip(AtPage(q, p + 1)) == Skip(AtPage(q, p)) + Take(q)
  {
    calc {
      Skip(AtPage(q, p + 1));
      p * Take(q);
      (p - 1) * Take(q) + Take(q);
    }
  }

  /** Pages 1 to `n` of a query, read one after the other. */
  function Pages<T>(q: Query, rows: seq<T>, n: nat): seq<T>
    requires Take(q) >= 0
  {
    if n == 0 then [] else Pages(q, rows, n - 1) + Window(rows, Skip(AtPage(q, n)), Take(q))
  }

  /** The pages tile the result: pages 1 to `n` together are its first `n * take` rows, in order. */
  lemma {:induction false} PagesTile<T>(q: Query, rows: seq<T>, n: nat)
    requires Take(q) > 0
    ensures Pages(q, rows, n) == rows[..Min(n * Take(q), |rows|)]
  {
    var t := Take(q);
    if n > 0 {
      PagesTile(q, rows, n - 1);
      var before := Min((n - 1) * t, |rows|);
      var w := Window(rows, Skip(AtPage(q, n)), t);
      assert Skip(AtPage(q, n)) == (n - 1) * t;
      assert (n - 1) * t + t == n * t;
      assert rows[..before] + w == rows[..Min(n * t, |rows|)];
    }
  }

  /** `Math.ceil(total / take)`; a zero `take` makes it infinite (or NaN), which is no count of pages. */
  function TotalPages(total: nat, take: int): (r: Option<int>)
    ensures r.None? <==> take == 0
    ensures take > 0 ==> r.Some? && (r.value - 1) * take < total <= r.value * take
    ensures take < 0 ==> r.Some? && r.value * take <= total < (r.value - 1) * take
  {
    if take == 0 then None
    else if take > 0 then Some((total + take - 1) / take)
    else Some(-(total / -take))
  }

  // ---------------------------------------------------------------- filter

  /** The `where` object: a category to match, and whether only featured projects count. */
  datatype Where = Where(category: Option<string>, featuredOnly: bool)

  function WhereOf(q: Query): (w: Where)
    ensures w.category.Some? <==> Truthy(q.category) && q.category.value != "all"
    ensures w.category.Some? ==> w.category == q.category
    ensures w.featuredOnly <==> q.featured == Some("true")
  {
    Where(if Truthy(q.category) && q.category.value != "all" then q.category else None,
          q.featured == Some("true"))
  }

  /** A stored project row; counts may be null. */
  datatype Project = Project(id: string, category: string, featured: bool,
                             views: Option<int>, likes: Option<int>, rating: Option<real>,
                             createdAt: int)

  predicate Matches(w: Where, p: Project) {
    (w.category.None? || w.category.value == p.category) && (!w.featuredOnly || p.featured)
  }

  /** A listing with no category (or `all`) and no featured flag selects the whole table. */
  lemma NoFilterMatchesAll(q: Query, table: seq<Project>)
    requires !Truthy(q.category) || q.category == Some("all")
    requires q.featured != Some("true")
    ensures Matching(table, WhereOf(q)) == table
  {
    FilterKeepsAll(table, p => Matches(WhereOf(q), p));
  }

  // ------------------------------------------------------------------ sort

  datatype SortKey = CreatedAt | FeaturedFlag | Views | Likes
  datatype Direction = Asc | Desc

  const FeaturedFirst: seq<(SortKey, Direction)> := [(FeaturedFlag, Desc), (CreatedAt, Desc)]

  /** The `orderBy` table for a `sort` parameter. */
  function OrderBy(sort: Option<string>): (r: seq<(SortKey, Direction)>)
    ensures |r| >= 1 && r[|r| - 1].0 == CreatedAt
    ensures forall k :: 0 <= k < |r| ==> (r[k].1 == Asc <==> sort == Some("oldest"))
    ensures sort == Some("newest") || sort == Some("oldest") <==> |r| == 1
    ensures r[0].0 == Views <==> sort == Some("popular")
    ensures sort == Some("popular") ==> r == [(Views, Desc), (Likes, Desc), (CreatedAt, Desc)]
    ensures r == FeaturedFirst <==>
      sort !in {Some("newest"), Some("oldest"), Some("popular")}
  {
    match sort
    case Some("newest") => [(CreatedAt, Desc)]
    case Some("oldest") => [(CreatedAt, Asc)]
    case Some("popular") => [(Views, Desc), (Likes, Desc), (CreatedAt, Desc)]
    case _ => FeaturedFirst
  }

  /** An explicit `featured` sort and an unknown or absent one give the same order. */
  lemma FeaturedIsDefault(sort: Option<string>)
    requires sort !in {Some("newest"), Some("oldest"), Some("popular")}
    ensures OrderBy(sort) == OrderBy(Some("featured"))
  {
  }

  /** The value a sort key reads from a row; a null count has none. */
  function KeyValue(k: SortKey, p: Project): Option<int> {
    match k
    case CreatedAt => Some(p.createdAt)
    case FeaturedFlag => Some(if p.featured then 1 else 0)
    case Views => p.views
    case Likes => p.likes
  }

  /** PostgreSQL's ascending order on a nullable column: a null comes after every number. */
  predicate NoLater(a: Option<int>, b: Option<int>) {
    b.None? || (a.Some? && a.value <= b.value)
  }

  /** Row `a` may come before row `b`: the first key on which they differ decides, in its direction. */
  predicate Precedes(keys: seq<(SortKey, Direction)>, a: Project, b: Project)
    decreases |keys|
  {
    if keys == [] then true
    else
      var x := KeyValue(keys[0].0, a);
      var y := KeyValue(keys[0].0, b);
      if x == y then Precedes(keys[1..], a, b)
      else if keys[0].1 == Asc then NoLater(x, y) else NoLater(y, x)
  }

  /** Any two rows are ordered one way or the other. */
  lemma {:induction false} PrecedesTotal(keys: seq<(SortKey, Direction)>, a: Project, b: Project)
    ensures Precedes(keys, a, b) || Precedes(keys, b, a)
    decreases |keys|
  {
    if keys != [] {
      PrecedesTotal(keys[1..], a, b);
    }
  }

  lemma {:induction false} PrecedesTransitive(keys: seq<(SortKey, Direction)>, a: Project, b: Project, c: Project)
    requires Precedes(keys, a, b) && Precedes(keys, b, c)
    ensures Precedes(keys, a, c)
    decreases |keys|
  {
    if keys != [] {
      var k := keys[0].0;
      if KeyValue(k, a) == KeyValue(k, b) && KeyValue(k, b) == KeyValue(k, c) {
        PrecedesTransitive(keys[1..], a, b, c);
      }
    }
  }

  predicate SortedBy(keys: seq<(SortKey, Direction)>, rows: seq<Project>) {
    forall i, j :: 0 <= i < j < |rows| ==> Precedes(keys, rows[i], rows[j])
  }

  /** `x` placed before the first row it may precede. */
  function Insert(keys: seq<(SortKey, Direction)>, x: Project, rows: seq<Project>): (r: seq<Project>)
    ensures multiset(r) == multiset(rows) + multiset{x}
  {
    if rows == [] then [x]
    else if Precedes(keys, x, rows[0]) then [x] + rows
    else
      assert rows == [rows[0]] + rows[1..];
      [rows[0]] + Insert(keys, x, rows[1..])
  }

  /** The rows in the order of the keys; rows the keys do not separate keep their table order. */
  function SortBy(keys: seq<(SortKey, Direction)>, rows: seq<Project>): (r: seq<Project>)
    ensures multiset(r) == multiset(rows) && |r| == |rows|
  {
    if rows == [] then []
    else
      assert rows == [rows[0]] + rows[1..];
      Insert(keys, rows[0], SortBy(keys, rows[1..]))
  }

  /** A row that may precede the first of a sorted list may precede all of it. */
  lemma PrecedesAll(keys: seq<(SortKey, Direction)>, x: Project, rows: seq<Project>)
    requires rows != [] && SortedBy(keys, rows) && Precedes(keys, x, rows[0])
    ensures SortedBy(keys, [x] + rows)
  {
    forall j | 1 <= j < |rows| ensures Precedes(keys, x, rows[j]) {
      PrecedesTransitive(keys, x, rows[0], rows[j]);
    }
  }

  /** A row that may precede `x` and every row of `rest` may precede every row of `Insert(x, rest)`. */
  lemma InsertedAfter(keys: seq<(SortKey, Direction)>, y: Project, x: Project, rest: seq<Project>)
    requires Precedes(keys, y, x)
    requires forall j :: 0 <= j < |rest| ==> Precedes(keys, y, rest[j])
    ensures forall j :: 0 <= j < |Insert(keys, x, rest)| ==> Precedes(keys, y, Insert(keys, x, rest)[j])
  {
    var t := Insert(keys, x, rest);
    forall j | 0 <= j < |t| ensures Precedes(keys, y, t[j]) {
      assert t[j] in multiset(t);
      if t[j] != x {
        assert t[j] in multiset(rest);
        var m :| 0 <= m < |rest| && rest[m] == t[j];
      }
    }
  }

  lemma {:induction false} InsertSorted(keys: seq<(SortKey, Direction)>, x: Project, rows: seq<Project>)
    requires SortedBy(keys, rows)
    ensures SortedBy(keys, Insert(keys, x, rows))
  {
    if rows != [] {
      if Precedes(keys, x, rows[0]) {
        PrecedesAll(keys, x, rows);
      } else {
        var rest := rows[1..];
        assert SortedBy(keys, rest) by {
          forall i, j | 0 <= i < j < |rest| ensures Precedes(keys, rest[i], rest[j]) {
            assert rest[i] == rows[i + 1] && rest[j] == rows[j + 1];
          }
        }
        InsertSorted(keys, x, rest);
        PrecedesTotal(keys, x, rows[0]);
        forall j | 0 <= j < |rest| ensures Precedes(keys, rows[0], rest[j]) {
          assert rest[j] == rows[j + 1];
        }
        InsertedAfter(keys, rows[0], x, rest);
        var t := Insert(keys, x, rest);
        assert Insert(keys, x, rows) == [rows[0]] + t;
      }
    }
  }

  /** The sort yields the rows, each as often as before, in the order of the keys. */
  lemma {:induction false} SortBySorted(keys: seq<(SortKey, Direction)>, rows: seq<Project>)
    ensures SortedBy(keys, SortBy(keys, rows))
    ensures multiset(SortBy(keys, rows)) == multiset(rows)
  {
    if rows != [] {
      SortBySorted(keys, rows[1..]);
      InsertSorted(keys, rows[0], SortBy(keys, rows[1..]));
    }
  }

  // --------------------------------------------------------------- listing

  /** A listed project: its null counts replaced by 0. */
  datatype Listed = Listed(id: string, category: string, featured: bool,
                           views: int, likes: int, rating: real, createdAt: int)

  /** `x || 0` on a number: absent and zero both become 0. */
  function OrZero(o: Option<int>): int {
    if o.Some? then o.value else 0
  }

  function Format(p: Project): (r: Listed)
    ensures r.id == p.id && r.category == p.category && r.featured == p.featured
    ensures r.createdAt == p.createdAt
    ensures p.views.Some? ==> r.views == p.views.value
    ensures p.likes.Some? ==> r.likes == p.likes.value
    ensures p.rating.Some? ==> r.rating == p.rating.value
    ensures p.views.None? ==> r.views == 0
    ensures p.likes.None? ==> r.likes == 0
    ensures p.rating.None? ==> r.rating == 0.0
  {
    Listed(p.id, p.category, p.featured, OrZero(p.views), OrZero(p.likes),
           if p.rating.Some? then p.rating.value else 0.0, p.createdAt)
  }

  /** Where the database failed: a thrown value, and the message when it is an `Error`. */
  datatype DbError = DbError(isError: bool, message: string)

  datatype ListResponse =
    | Listing(projects: seq<Listed>, total: nat, page: int, limit: int, totalPages: Option<int>)
    | ListFailed(status: int)

  /** The status of a failed listing: timeouts 504, connection failures 503, anything else 500. */
  function FailureStatus(e: DbError): (status: int)
    ensures status == 504 <==> e.isError && Contains(e.message, "timeout")
    ensures status == 503 <==> e.isError && !Contains(e.message, "timeout") &&
                               (Contains(e.message, "connect") || Contains(e.message, "ECONNREFUSED"))
    ensures status in {500, 503, 504}
  {
    if e.isError && Contains(e.message, "timeout") then 504
    else if e.isError && (Contains(e.message, "connection") || Contains(e.message, "connect") ||
                          Contains(e.message, "ECONNREFUSED")) then
      ConnectionContainsConnect(e.message);
      503
    else 500
  }

  lemma ConnectionContainsConnect(m: string)
    ensures Contains(m, "connection") ==> Contains(m, "connect")
  {
    if Contains(m, "connection") {
      var i := IndexOf(m, "connection").value;
      assert m[i..i + 7] == m[i..i + 10][..7];
      ContainsAt(m, "connect", i);
    }
  }

  /** The arguments of `findMany`: the filter, the sort keys and the page window. */
  datatype FindMany = FindMany(where: Where, orderBy: seq<(SortKey, Direction)>, skip: int, take: int)

  /** The `findMany` call the listing builds from its query parameters. */
  function FindManyOf(q: Query): (f: FindMany)
    ensures f.where == WhereOf(q) && f.orderBy == OrderBy(q.sort)
    ensures f.skip == Skip(q) && f.take == Take(q)
  {
    FindMany(WhereOf(q), OrderBy(q.sort), Skip(q), Take(q))
  }

  /** The rows of `table` a `findMany` selects. */
  function Matching(table: seq<Project>, w: Where): seq<Project> {
    Filter(table, p => Matches(w, p))
  }

  /**
   * What a table answers to `findMany` with a non-negative window: the
   * matching rows in the order of the keys, from `skip` on, at most `take`.
   */
  function Answer(table: seq<Project>, f: FindMany): (r: seq<Project>)
    requires f.skip >= 0 && f.take >= 0
    ensures |r| == Max(0, Min(f.take, |Matching(table, f.where)| - f.skip))
    ensures forall p :: p in r ==> p in table && Matches(f.where, p)
    ensures SortedBy(f.orderBy, r)
  {
    var matching := Matching(table, f.where);
    var sorted := SortBy(f.orderBy, matching);
    SortBySorted(f.orderBy, matching);
    WindowSorted(f.orderBy, sorted, f.skip, f.take);
    WindowDrawn(sorted, f.skip, f.take);
    assert forall p :: p in sorted ==> p in matching by {
      forall p | p in sorted ensures p in matching {
        assert p in multiset(sorted);
      }
    }
    Window(sorted, f.skip, f.take)
  }

  /** A page window only holds rows of what it pages. */
  lemma WindowDrawn<T>(rows: seq<T>, skip: nat, take: nat)
    ensures forall x :: x in Window(rows, skip, take) ==> x in rows
  {
    var w := Window(rows, skip, take);
    forall x | x in w ensures x in rows {
      var k :| 0 <= k < |w| && w[k] == x;
      assert rows[skip + k] == x;
    }
  }

  /** A page window of sorted rows is sorted. */
  lemma WindowSorted(keys: seq<(SortKey, Direction)>, rows: seq<Project>, skip: nat, take: nat)
    requires SortedBy(keys, rows)
    ensures SortedBy(keys, Window(rows, skip, take))
  {
    var w := Window(rows, skip, take);
    forall i, j | 0 <= i < j < |w| ensures Precedes(keys, w[i], w[j]) {
      assert w[i] == rows[skip + i] && w[j] == rows[skip + j];
    }
  }

  /**
   * The listing: a failed connection probe is 503; then `findMany` is asked
   * with the arguments built from the query and `count` with its filter, and
   * the first failure maps through `FailureStatus`; otherwise the rows are
   * formatted, in the order returned, with the count and the page count.
   */
  function List(q: Query, probeOk: bool, findMany: FindMany -> Result<seq<Project>, DbError>,
                count: Where -> Result<nat, DbError>): (r: ListResponse)
    ensures !probeOk ==> r == ListFailed(503)
    ensures probeOk && findMany(FindManyOf(q)).Err? ==>
              r == ListFailed(FailureStatus(findMany(FindManyOf(q)).error))
    ensures probeOk && findMany(FindManyOf(q)).Ok? && count(WhereOf(q)).Err? ==>
              r == ListFailed(FailureStatus(count(WhereOf(q)).error))
    ensures probeOk && findMany(FindManyOf(q)).Ok? && count(WhereOf(q)).Ok? ==>
      var rows := findMany(FindManyOf(q)).value;
      var total := count(WhereOf(q)).value;
      && r.Listing?
      && |r.projects| == |rows|
      && (forall k :: 0 <= k < |r.projects| ==> r.projects[k] == Format(rows[k]))
      && r.total == total
      && r.limit == Take(q)
      && r.page == (if q.page.Some? then q.page.value else 1)
      && r.totalPages == TotalPages(total, Take(q))
  {
    if !probeOk then ListFailed(503)
    else match findMany(FindManyOf(q))
      case Err(e) => ListFailed(FailureStatus(e))
      case Ok(rows) =>
        match count(WhereOf(q))
        case Err(e) => ListFailed(FailureStatus(e))
        case Ok(total) =>
          Listing(seq(|rows|, k requires 0 <= k < |rows| => Format(rows[k])), total,
                  if q.page.Some? then q.page.value else 1, Take(q), TotalPages(total, Take(q)))
  }

  /**
   * Against a database that answers from one table, a listing holds exactly
   * `min(take, total - skip)` projects, each a formatted matching row, and
   * the page count covers the total.
   */
  lemma ListFromTable(q: Query, table: seq<Project>, findMany: FindMany -> Result<seq<Project>, DbError>,
                      count: Where -> Result<nat, DbError>)
    requires Skip(q) >= 0 && Take(q) > 0
    requires findMany(FindManyOf(q)) == Ok(Answer(table, FindManyOf(q)))
    requires count(WhereOf(q)) == Ok(|Matching(table, WhereOf(q))|)
    ensures var r := List(q, true, findMany, count);
      && r.Listing?
      && |r.projects| == Max(0, Min(Take(q), r.total - Skip(q)))
      && (forall k :: 0 <= k < |r.projects| ==>
            exists p :: p in table && Matches(WhereOf(q), p) && r.projects[k] == Format(p))
      && r.totalPages.Some? && r.total <= r.totalPages.value * Take(q)
  {
    var rows := Answer(table, FindManyOf(q));
    var r := List(q, true, findMany, count);
    forall k | 0 <= k < |r.projects|
      ensures exists p :: p in table && Matches(WhereOf(q), p) && r.projects[k] == Format(p)
    {
      assert rows[k] in rows;
    }
  }

  // -------------------------------------------------------------- creation

  /** One submitted media item; absent and empty strings are both falsy. */
  datatype MediaInput = MediaInput(kind: string, src: Option<string>, thumbnail: Option<string>,
                                   title: Option<string>, description: Option<string>,
                                   duration: Option<int>)

  datatype MediaRecord = MediaRecord(kind: string, src: string, thumbnail: string, title: string,
                                     description: string, duration: Option<int>, order: nat)

  /** A submitted tag or material: a bare string or an object with a `name`. */
  datatype Label = Text(text: string) | Named(name: string)

  datatype CreateInput = CreateInput(
    title: Option<string>, description: Option<string>, category: Option<string>,
    location: Option<string>, completionDate: string, client: Option<string>,
    featured: bool, projectDuration: Option<string>, projectCost: Option<string>,
    mediaItems: Option<seq<MediaInput>>, tags: Option<seq<Label>>, materials: Option<seq<Label>>)

  datatype ProjectRecord = ProjectRecord(
    title: string, description: string, category: string, location: string,
    completionDate: string, client: Option<string>, featured: bool,
    projectDuration: string, projectCost: string,
    media: seq<MediaRecord>, tags: seq<string>, materials: seq<string>)

  /**
   * Why no record was created: 400 for missing fields; 500 for a media item
   * without `src`, a body that is not JSON, or a database write that failed.
   */
  datatype CreateError = MissingFields | MediaWithoutSrc(index: nat) | UnreadableBody | StoreFailed

  function CreateStatus(e: CreateError): int {
    match e
    case MissingFields => 400
    case MediaWithoutSrc(_) => 500
    case UnreadableBody => 500
    case StoreFailed => 500
  }

  /** `ملف n`, "file n", the default title of the n-th media item. */
  function DefaultTitle(n: nat): string {
    "\U{0645}\U{0644}\U{0641} " + NatToString(n)
  }

  function OrDefault(o: Option<string>, default: string): string {
    if Truthy(o) then o.value else default
  }

  /** The index of the first item without a `src`. */
  function FirstWithoutSrc(items: seq<MediaInput>): (r: Option<nat>)
    ensures r.Some? ==> r.value < |items| && !Truthy(items[r.value].src)
    ensures r.Some? ==> forall k :: 0 <= k < r.value ==> Truthy(items[k].src)
    ensures r.None? ==> forall k :: 0 <= k < |items| ==> Truthy(items[k].src)
  {
    if items == [] then None
    else if !Truthy(items[0].src) then Some(0)
    else match FirstWithoutSrc(items[1..])
      case None => None
      case Some(i) => Some(i + 1)
  }

  /** The creation record of the item at `index`. */
  function NormaliseItem(item: MediaInput, index: nat): (r: MediaRecord)
    requires Truthy(item.src)
    ensures r.order == index && r.kind == item.kind && r.src == item.src.value
    ensures r.src != "" && r.thumbnail != "" && r.title != ""
    ensures Truthy(item.thumbnail) ==> r.thumbnail == item.thumbnail.value
    ensures !Truthy(item.thumbnail) ==> r.thumbnail == r.src
    ensures Truthy(item.title) ==> r.title == item.title.value
    ensures !Truthy(item.title) ==> r.title == DefaultTitle(index + 1)
  {
    MediaRecord(item.kind, item.src.value, OrDefault(item.thumbnail, item.src.value),
                OrDefault(item.title, DefaultTitle(index + 1)), OrDefault(item.description, ""),
                if item.duration == Some(0) then None else item.duration, index)
  }

  /** The media records: one per item, numbered by position, or the first item without a `src`. */
  function NormaliseMedia(items: seq<MediaInput>): (r: Result<seq<MediaRecord>, nat>)
    ensures r.Err? <==> exists k :: 0 <= k < |items| && !Truthy(items[k].src)
    ensures r.Err? ==> r.error < |items| && !Truthy(items[r.error].src) &&
                       forall k :: 0 <= k < r.error ==> Truthy(items[k].src)
    ensures r.Ok? ==> |r.value| == |items| &&
                      forall k :: 0 <= k < |items| ==> r.value[k] == NormaliseItem(items[k], k)
  {
    match FirstWithoutSrc(items)
    case Some(i) => Err(i)
    case None => Ok(seq(|items|, k requires 0 <= k < |items| => NormaliseItem(items[k], k)))
  }

  function NameOf(l: Label): string {
    match l
    case Text(s) => s
    case Named(n) => n
  }

  function Names(ls: seq<Label>): (r: seq<string>)
    ensures |r| == |ls| && forall k :: 0 <= k < |ls| ==> r[k] == NameOf(ls[k])
  {
    seq(|ls|, k requires 0 <= k < |ls| => NameOf(ls[k]))
  }

  /** The creation of a project from a submitted body. */
  function Create(d: CreateInput): (r: Result<ProjectRecord, CreateError>)
    ensures r == Err(MissingFields) <==>
      !Truthy(d.title) || !Truthy(d.description) || !Truthy(d.category) || !Truthy(d.location)
    ensures r.Err? && r.error.MediaWithoutSrc? ==>
      d.mediaItems.Some? && NormaliseMedia(d.mediaItems.value) == Err(r.error.index)
    ensures r.Ok? ==>
      && r.value.title == d.title.value && r.value.description == d.description.value
      && r.value.category == d.category.value && r.value.location == d.location.value
      && (d.mediaItems.None? ==> r.value.media == [])
      && (d.mediaItems.Some? ==> NormaliseMedia(d.mediaItems.value) == Ok(r.value.media))
      && (d.tags.Some? ==> r.value.tags == Names(d.tags.value))
      && (d.tags.None? ==> r.value.tags == [])
      && (d.materials.Some? ==> r.value.materials == Names(d.materials.value))
      && (d.materials.None? ==> r.value.materials == [])
      && r.value.client == (if Truthy(d.client) then d.client else None)
      && r.value.featured == d.featured && r.value.completionDate == d.completionDate
      && r.value.projectDuration == OrDefault(d.projectDuration, "")
      && r.value.projectCost == OrDefault(d.projectCost, "")
  {
    if !Truthy(d.title) || !Truthy(d.description) || !Truthy(d.category) || !Truthy(d.location) then
      Err(MissingFields)
    else
      var media := if d.mediaItems.Some? then NormaliseMedia(d.mediaItems.value) else Ok([]);
      match media
      case Err(i) => Err(MediaWithoutSrc(i))
      case Ok(m) =>
        Ok(ProjectRecord(d.title.value, d.description.value, d.category.value, d.location.value,
                         d.completionDate, if Truthy(d.client) then d.client else None, d.featured,
                         OrDefault(d.projectDuration, ""), OrDefault(d.projectCost, ""),
                         m,
                         if d.tags.Some? then Names(d.tags.value) else [],
                         if d.materials.Some? then Names(d.materials.value) else []))
  }

  /**
   * `POST /api/projects`: `body` is `None` when `request.json()` throws, and
   * `createOk` is whether `prisma.project.create` succeeds; the catch answers
   * both failures with 500.
   */
  function Post(body: Option<CreateInput>, createOk: bool): (r: Result<ProjectRecord, CreateError>)
    ensures r == Err(UnreadableBody) <==> body.None?
    ensures r == Err(StoreFailed) <==> body.Some? && Create(body.value).Ok? && !createOk
    ensures body.Some? && (Create(body.value).Err? || createOk) ==> r == Create(body.value)
    ensures r.Err? ==>
      (CreateStatus(r.error) == 400 <==>
         body.Some? && (!Truthy(body.value.title) || !Truthy(body.value.description) ||
                        !Truthy(body.value.category) || !Truthy(body.value.location)))
  {
    match body
    case None => Err(UnreadableBody)
    case Some(d) => if Create(d).Ok? && !createOk then Err(StoreFailed) else Create(d)
  }

  /** One item without a `src`, anywhere in the list, stops the whole creation. */
  lemma OneMissingSrcAbortsAll(d: CreateInput, k: nat)
    requires Truthy(d.title) && Truthy(d.description) && Truthy(d.category) && Truthy(d.location)
    requires d.mediaItems.Some? && k < |d.mediaItems.value| && !Truthy(d.mediaItems.value[k].src)
    ensures Create(d).Err? && Create(d).error.MediaWithoutSrc? && Create(d).error.index <= k
    ensures CreateStatus(Create(d).error) == 500
  {
  }
}

=== FILE: session.dfy ===
/**
 * The admin session check. The `admin-session` cookie holds a JSON object
 * with the admin's id, user name and login time; the session is valid when
 * the cookie parses, names an admin, and is no older than 24 hours.
 *
 * Parsing the cookie is a parameter; times are integer milliseconds, and a
 * login time that is absent or does not parse as a date is `None` (the
 * source's `NaN`).
 */
module Session {
  import opened Common

  const HourMillis: int := 60 * 60 * 1000
  const SessionHours: int := 24
  const SessionMillis: int := SessionHours * HourMillis

  /** The fields of the parsed cookie. */
  datatype SessionData = SessionData(adminId: Option<string>, username: Option<string>, loginTime: Option<int>)

  datatype Outcome =
    | NoSession
    | Corrupt
    | Expired
    | Valid(adminId: string, username: string, loginTime: Option<int>, remainingHours: Option<int>)

  /** Every outcome but `Valid` is answered with 401 and `authenticated: false`. */
  function StatusCode(o: Outcome): (code: int)
    ensures code == 200 <==> o.Valid?
    ensures code != 200 ==> code == 401
  {
    if o.Valid? then 200 else 401
  }

  /** `Math.round(a / b)` for a positive `b`: the nearest integer, halves rounded up. */
  function RoundDiv(a: int, b: int): (r: int)
    requires b > 0
    ensures 2 * r * b - b <= 2 * a < 2 * r * b + b
  {
    (2 * a + b) / (2 * b)
  }

  /**
   * `GET`: no cookie, a cookie that does not parse or lacks the admin's id
   * or name, and a login more than 24 hours ago are all rejected; otherwise
   * the admin is echoed with the hours left, rounded.
   */
  function Check(cookie: Option<string>, parse: string -> Option<SessionData>, now: int): (o: Outcome)
    ensures o == NoSession <==> !Truthy(cookie)
    ensures o == Corrupt <==>
      Truthy(cookie) &&
      (parse(cookie.value).None? || !Truthy(parse(cookie.value).value.adminId) ||
       !Truthy(parse(cookie.value).value.username))
    ensures o == Expired <==>
      Truthy(cookie) && parse(cookie.value).Some? &&
      Truthy(parse(cookie.value).value.adminId) && Truthy(parse(cookie.value).value.username) &&
      parse(cookie.value).value.loginTime.Some? &&
      now - parse(cookie.value).value.loginTime.value > SessionMillis
    ensures o.Valid? ==>
      var d := parse(cookie.value).value;
      && o.adminId == d.adminId.value && o.username == d.username.value
      && o.loginTime == d.loginTime
      && (d.loginTime.None? <==> o.remainingHours.None?)
      && (d.loginTime.Some? ==> o.remainingHours == Some(RoundDiv(SessionMillis - (now - d.loginTime.value), HourMillis)))
  {
    if !Truthy(cookie) then NoSession
    else match parse(cookie.value)
      case None => Corrupt
      case Some(d) =>
        if !Truthy(d.adminId) || !Truthy(d.username) then Corrupt
        else match d.loginTime
          case None => Valid(d.adminId.value, d.username.value, None, None)
          case Some(t) =>
            if now - t > SessionMillis then Expired
            else Valid(d.adminId.value, d.username.value, Some(t),
                       Some(RoundDiv(SessionMillis - (now - t), HourMillis)))
  }

  /** A session exactly 24 hours old is still valid, with no hours left. */
  lemma ExactlyOneDayIsValid(cookie: string, parse: string -> Option<SessionData>, admin: string, user: string, t: int)
    requires cookie != "" && parse(cookie) == Some(SessionData(Some(admin), Some(user), Some(t)))
    requires admin != "" && user != ""
    ensures Check(Some(cookie), parse, t + SessionMillis) == Valid(admin, user, Some(t), Some(0))
  {
  }

  /** A login time that is absent or unreadable never expires. */
  lemma UnreadableLoginNeverExpires(cookie: string, parse: string -> Option<SessionData>, now: int)
    requires cookie != "" && parse(cookie).Some? && parse(cookie).value.loginTime.None?
    ensures Check(Some(cookie), parse, now) != Expired
  {
  }

  /** A valid session that started in the past has between 0 and 24 hours left. */
  lemma RemainingHoursInRange(cookie: Option<string>, parse: string -> Option<SessionData>, now: int)
    requires Check(cookie, parse, now).Valid?
    requires Check(cookie, parse, now).loginTime.Some? && Check(cookie, parse, now).loginTime.value <= now
    ensures var h := Check(cookie, parse, now).remainingHours;
            h.Some? && 0 <= h.value <= SessionHours
  {
    var o := Check(cookie, parse, now);
    var a := SessionMillis - (now - o.loginTime.value);
    var r := RoundDiv(a, HourMillis);
    assert 0 <= a <= SessionMillis;
  }
}

=== FILE: strings.dfy ===
/**
 * The handful of string operations the site's code relies on, with the
 * meaning they have in JavaScript: `startsWith`, `includes`, `indexOf`,
 * `replace` with a string pattern (first occurrence only), `trim`,
 * `toLowerCase` (ASCII letters), `split(c)[0]`, Node's `path.extname`
 * and the decimal rendering of a non-negative integer.
 */
module Strings {
  import opened Common

  predicate StartsWith(s: string, prefix: string) {
    |prefix| <= |s| && s[..|prefix|] == prefix
  }

  /** `pat` occurs in `s` starting at index `i`. */
  predicate OccursAt(s: string, pat: string, i: int) {
    0 <= i && i + |pat| <= |s| && s[i..i + |pat|] == pat
  }

  /** `s.indexOf(pat, from)`: the least index at or after `from` where `pat` occurs. */
  function IndexFrom(s: string, pat: string, from: nat): (r: Option<nat>)
    ensures r.Some? ==> from <= r.value && OccursAt(s, pat, r.value)
    ensures r.Some? ==> forall j :: from <= j < r.value ==> !OccursAt(s, pat, j)
    ensures r.None? ==> forall j :: from <= j ==> !OccursAt(s, pat, j)
    decreases |s| - from
  {
    if from + |pat| > |s| then None
    else if s[from..from + |pat|] == pat then Some(from)
    else IndexFrom(s, pat, from + 1)
  }

  function IndexOf(s: string, pat: string): Option<nat> {
    IndexFrom(s, pat, 0)
  }

  /** `s.includes(pat)`. */
  predicate Contains(s: string, pat: string) {
    IndexOf(s, pat).Some?
  }

  lemma ContainsAt(s: string, pat: string, i: int)
    requires OccursAt(s, pat, i)
    ensures Contains(s, pat)
  {
  }

  /**
   * `s.replace(pat, rep)` with a string pattern: only the first occurrence
   * is replaced, and a string without `pat` is returned unchanged.
   */
  function ReplaceFirst(s: string, pat: string, rep: string): (r: string)
    ensures !Contains(s, pat) ==> r == s
    ensures Contains(s, pat) ==>
      var i := IndexOf(s, pat).value;
      OccursAt(s, pat, i) && (forall j :: 0 <= j < i ==> !OccursAt(s, pat, j)) &&
      r == s[..i] + rep + s[i + |pat|..]
    ensures Contains(s, pat) ==> |r| == |s| - |pat| + |rep|
  {
    match IndexOf(s, pat)
    case None => s
    case Some(i) => s[..i] + rep + s[i + |pat|..]
  }

  /** JavaScript's white space and line terminators, as `trim` removes them. */
  predicate IsWhitespace(c: char) {
    c == '\t' || c == '\n' || c == '\U{000B}' || c == '\U{000C}' || c == '\r' || c == ' ' ||
    c == '\U{00A0}' || c == '\U{1680}' || ('\U{2000}' <= c <= '\U{200A}') ||
    c == '\U{2028}' || c == '\U{2029}' || c == '\U{202F}' || c == '\U{205F}' ||
    c == '\U{3000}' || c == '\U{FEFF}'
  }

  function TrimStart(s: string): (r: string)
    ensures |r| <= |s| && r == s[|s| - |r|..]
    ensures r == [] || !IsWhitespace(r[0])
    ensures forall k :: 0 <= k < |s| - |r| ==> IsWhitespace(s[k])
  {
    if s != [] && IsWhitespace(s[0]) then TrimStart(s[1..]) else s
  }

  function TrimEnd(s: string): (r: string)
    ensures |r| <= |s| && r == s[..|r|]
    ensures r == [] || !IsWhitespace(r[|r| - 1])
    ensures forall k :: |r| <= k < |s| ==> IsWhitespace(s[k])
  {
    if s != [] && IsWhitespace(s[|s| - 1]) then TrimEnd(s[..|s| - 1]) else s
  }

  /**
   * `s.trim()`: the longest infix of `s` that neither starts nor ends with
   * white space; everything cut off on either side is white space.
   */
  function Trim(s: string): (r: string)
    ensures r == [] || (!IsWhitespace(r[0]) && !IsWhitespace(r[|r| - 1]))
    ensures exists a, b ::
      && 0 <= a <= b <= |s| && r == s[a..b]
      && (forall k :: 0 <= k < a ==> IsWhitespace(s[k]))
      && (forall k :: b <= k < |s| ==> IsWhitespace(s[k]))
  {
    var t := TrimStart(s);
    var r := TrimEnd(t);
    var a := |s| - |t|;
    assert r == s[a..a + |r|];
    r
  }

  lemma {:induction false} TrimStartFixed(s: string)
    requires s == [] || !IsWhitespace(s[0])
    ensures TrimStart(s) == s
  {
  }

  lemma {:induction false} TrimEndFixed(s: string)
    requires s == [] || !IsWhitespace(s[|s| - 1])
    ensures TrimEnd(s) == s
  {
  }

  /** White space in front is dropped up to the first other character. */
  lemma {:induction false} TrimStartDrops(pad: string, s: string)
    requires forall k :: 0 <= k < |pad| ==> IsWhitespace(pad[k])
    requires s == [] || !IsWhitespace(s[0])
    ensures TrimStart(pad + s) == s
  {
    if pad == [] {
      assert pad + s == s;
      TrimStartFixed(s);
    } else {
      assert (pad + s)[0] == pad[0];
      assert (pad + s)[1..] == pad[1..] + s;
      TrimStartDrops(pad[1..], s);
    }
  }

  /** White space at the end is dropped back to the last other character. */
  lemma {:induction false} TrimEndDrops(s: string, pad: string)
    requires forall k :: 0 <= k < |pad| ==> IsWhitespace(pad[k])
    requires s == [] || !IsWhitespace(s[|s| - 1])
    ensures TrimEnd(s + pad) == s
  {
    if pad == [] {
      assert s + pad == s;
      TrimEndFixed(s);
    } else {
      var p := pad[..|pad| - 1];
      assert (s + pad)[|s + pad| - 1] == pad[|pad| - 1];
      assert (s + pad)[..|s + pad| - 1] == s + p;
      TrimEndDrops(s, p);
    }
  }

  /** Trimming a padded text gives the text back when it neither starts nor ends with white space. */
  lemma TrimPadded(before: string, s: string, after: string)
    requires forall k :: 0 <= k < |before| ==> IsWhitespace(before[k])
    requires forall k :: 0 <= k < |after| ==> IsWhitespace(after[k])
    requires s != [] && !IsWhitespace(s[0]) && !IsWhitespace(s[|s| - 1])
    ensures Trim(before + s + after) == s
  {
    assert before + s + after == before + (s + after);
    assert (s + after)[0] == s[0];
    TrimStartDrops(before, s + after);
    TrimEndDrops(s, after);
  }

  /** Trimming twice is trimming once. */
  lemma TrimIdempotent(s: string)
    ensures Trim(Trim(s)) == Trim(s)
  {
    var r := Trim(s);
    TrimStartFixed(r);
    TrimEndFixed(r);
  }

  function LowerChar(c: char): char {
    if 'A' <= c <= 'Z' then (c as int + 32) as char else c
  }

  /** `s.toLowerCase()` on ASCII letters; every other character is kept. */
  function ToLower(s: string): (r: string)
    ensures |r| == |s|
    ensures forall k :: 0 <= k < |s| ==> r[k] == LowerChar(s[k])
  {
    seq(|s|, k requires 0 <= k < |s| => LowerChar(s[k]))
  }

  /** `s.split(sep)[0]` for a one-character separator: everything before the first `sep`, or all of `s`. */
  function BeforeFirst(s: string, sep: char): (r: string)
    ensures |r| <= |s| && r == s[..|r|]
    ensures sep !in r
    ensures |r| < |s| ==> s[|r|] == sep
  {
    if s == [] || s[0] == sep then [] else [s[0]] + BeforeFirst(s[1..], sep)
  }

  /** The index of the last `c` in `s`. */
  function LastIndexOfChar(s: string, c: char): (r: Option<nat>)
    ensures r.Some? ==> r.value < |s| && s[r.value] == c && c !in s[r.value + 1..]
    ensures r.None? ==> c !in s
  {
    if s == [] then None
    else if s[|s| - 1] == c then Some(|s| - 1)
    else LastIndexOfChar(s[..|s| - 1], c)
  }

  /**
   * Node's `path.extname` for a name without `/`: from the last dot to the
   * end, except that a name with no dot, a name whose only dot is its first
   * character, and the name `..` have no extension.
   */
  function Extname(name: string): (r: string)
    ensures r == [] || (r[0] == '.' && |r| <= |name| && r == name[|name| - |r|..] && '.' !in r[1..])
    ensures r == [] <==> ('.' !in name || name == ".." ||
                          (LastIndexOfChar(name, '.') == Some(0)))
  {
    match LastIndexOfChar(name, '.')
    case None => ""
    case Some(d) => if d == 0 || name == ".." then "" else name[d..]
  }

  function DigitChar(d: nat): char
    requires d < 10
  {
    ('0' as int + d) as char
  }

  /** The decimal rendering of `n`, as JavaScript's `String(n)` writes it. */
  function NatToString(n: nat): (r: string)
    ensures |r| >= 1
    ensures forall k :: 0 <= k < |r| ==> '0' <= r[k] <= '9'
    ensures n > 0 ==> r[0] != '0'
  {
    if n < 10 then [DigitChar(n)] else NatToString(n / 10) + [DigitChar(n % 10)]
  }

  /** `a < b` on strings: lexicographic order of the characters, a proper prefix first. */
  predicate Less(a: string, b: string) {
    if a == [] then b != []
    else if b == [] then false
    else if a[0] != b[0] then a[0] < b[0]
    else Less(a[1..], b[1..])
  }

  lemma {:induction false} LessIrreflexive(a: string)
    ensures !Less(a, a)
  {
    if a != [] {
      LessIrreflexive(a[1..]);
    }
  }
}

=== FILE: upload.dfy ===
/**
 * The upload endpoint: picks the files of a multipart request, checks each
 * file's MIME type and size against the upload configuration, stores the
 * good ones (on the image CDN when it is configured, else on local disk),
 * records one result per file in input order, and answers with the
 * successes and failures partitioned.
 *
 * The CDN call, the clock, the random file-name token and the disk write are
 * parameters: `Storage` carries them as functions.
 */
module Upload {
  import opened Common
  import opened Strings

  const MiB: int := 1024 * 1024
  const MaxImageSize: int := 20 * MiB
  const MaxVideoSize: int := 100 * MiB

  const AllowedImageTypes: seq<string> := ["image/jpeg", "image/jpg", "image/png", "image/webp", "image/gif"]
  const AllowedVideoTypes: seq<string> := ["video/mp4", "video/mov", "video/avi", "video/webm", "video/quicktime"]

  /** One file of the request: its name, its declared MIME type and its size in bytes. */
  datatype File = File(name: string, mimeType: string, size: int)

  datatype MediaKind = Image | Video

  /** Why one file was not stored. `TooLarge` carries the cap in MiB, as the message shows it. */
  datatype FileError =
    | UnsupportedType(mimeType: string)
    | TooLarge(maxMiB: int)
    | StorageFailed(message: string)

  /** What the CDN reports for a stored file. A width, height or duration of 0 is absent. */
  datatype CdnAsset = CdnAsset(publicId: string, secureUrl: string, bytes: int,
                               width: int, height: int, duration: int)

  /**
   * Where files go. `Cloud` wraps the CDN call; `Disk` wraps the clock, the
   * random token (already in base 36) and the write, each asked for the
   * index of the file being processed.
   */
  datatype Storage =
    | Cloud(upload: (File, MediaKind) -> Result<CdnAsset, string>)
    | Disk(clock: nat -> nat, token: nat -> string, write: string -> Option<string>)

  datatype StorageType = CloudStorage | LocalStorage

  /** The CDN call and the local-disk helpers; which one is used depends on the configuration. */
  datatype Backends = Backends(upload: (File, MediaKind) -> Result<CdnAsset, string>,
                               clock: nat -> nat, token: nat -> string,
                               write: string -> Option<string>)

  /** The CDN settings as read from the environment; an unset variable is `""`. */
  datatype CdnConfig = CdnConfig(cloudName: string, apiKey: string, apiSecret: string)

  /** One entry of `results`. */
  datatype FileResult =
    | Stored(originalName: string, fileName: string, src: string, kind: MediaKind, size: int,
             mimeType: string, width: Option<int>, height: Option<int>, duration: Option<int>,
             thumbnail: Option<string>, storage: StorageType)
    | Failed(originalName: string, error: FileError)

  /** `isCloudinaryAvailable`: the cloud name, key and secret are set and the cloud name is not `demo`. */
  predicate CloudinaryAvailable(config: CdnConfig) {
    config.cloudName != "" && config.apiKey != "" && config.apiSecret != "" && config.cloudName != "demo"
  }

  /** The storage the loop writes to: the CDN when it is available, else the local disk. */
  function StorageFor(config: CdnConfig, b: Backends): (s: Storage)
    ensures s.Cloud? <==> CloudinaryAvailable(config)
    ensures s.Cloud? ==> s == Cloud(b.upload)
    ensures s.Disk? ==> s == Disk(b.clock, b.token, b.write)
  {
    if CloudinaryAvailable(config) then Cloud(b.upload) else Disk(b.clock, b.token, b.write)
  }

  /**
   * The checks before any storage: the MIME type must start with `video/`
   * or `image/` (video decided first) and be in that kind's allow-list, and
   * the size must not exceed that kind's cap. A file passes exactly when it
   * is an allowed video within 100 MiB or an allowed image within 20 MiB.
   */
  function Validate(f: File): (r: Result<MediaKind, FileError>)
    ensures r == Ok(Video) <==> f.mimeType in AllowedVideoTypes && f.size <= MaxVideoSize
    ensures r == Ok(Image) <==> f.mimeType in AllowedImageTypes && f.size <= MaxImageSize
    ensures r == Err(UnsupportedType(f.mimeType)) <==>
              f.mimeType !in AllowedVideoTypes && f.mimeType !in AllowedImageTypes
    ensures r == Err(TooLarge(100)) <==> f.mimeType in AllowedVideoTypes && f.size > MaxVideoSize
    ensures r == Err(TooLarge(20)) <==> f.mimeType in AllowedImageTypes && f.size > MaxImageSize
  {
    var isVideo := StartsWith(f.mimeType, "video/");
    var isImage := StartsWith(f.mimeType, "image/");
    AllowListsByPrefix(f.mimeType);
    if !isVideo && !isImage then Err(UnsupportedType(f.mimeType))
    else
      var allowed := if isVideo then AllowedVideoTypes else AllowedImageTypes;
      if f.mimeType !in allowed then Err(UnsupportedType(f.mimeType))
      else
        var maxSize := if isVideo then MaxVideoSize else MaxImageSize;
        if f.size > maxSize then Err(TooLarge(maxSize / MiB))
        else Ok(if isVideo then Video else Image)
  }

  /** Every allowed video type starts with `video/` and every allowed image type with `image/`. */
  lemma AllowListsByPrefix(t: string)
    ensures t in AllowedVideoTypes ==> StartsWith(t, "video/") && !StartsWith(t, "image/")
    ensures t in AllowedImageTypes ==> StartsWith(t, "image/") && !StartsWith(t, "video/")
  {
  }

  /** The CDN's video poster: the first `/upload/` gets the crop segment, then `.jpg` is appended. */
  function VideoThumbnail(url: string): (r: string)
    ensures Contains(url, "/upload/") ==> |r| == |url| + |"c_fill,h_200,w_300,so_0/"| + 4
    ensures !Contains(url, "/upload/") ==> r == url + ".jpg"
    ensures r[|r| - 4..] == ".jpg"
  {
    ReplaceFirst(url, "/upload/", "/upload/c_fill,h_200,w_300,so_0/") + ".jpg"
  }

  /** `value || null` for a CDN number. */
  function NonZero(n: int): Option<int> {
    if n == 0 then None else Some(n)
  }

  /** The name of the `index`-th file on local disk: `<timestamp>_<token><extension>`. */
  function LocalFileName(f: File, stamp: nat, token: string): (r: string)
    ensures r == NatToString(stamp) + "_" + token + Extname(f.name)
    ensures StartsWith(r, NatToString(stamp) + "_" + token)
    ensures |Extname(f.name)| <= |r| && r[|r| - |Extname(f.name)|..] == Extname(f.name)
  {
    var r := NatToString(stamp) + "_" + token + Extname(f.name);
    assert r[..|NatToString(stamp) + "_" + token|] == NatToString(stamp) + "_" + token;
    r
  }

  /**
   * The body of the loop for one file: a `Failed` entry with the file's name
   * when a check or the storage fails, else a `Stored` entry whose kind is
   * the validated one.
   */
  function ProcessOne(f: File, index: nat, storage: Storage): (r: FileResult)
    ensures r.originalName == f.name
    ensures Validate(f).Err? ==> r == Failed(f.name, Validate(f).error)
    ensures r.Stored? ==> Validate(f) == Ok(r.kind) && r.mimeType == f.mimeType
    ensures r.Stored? ==> (r.thumbnail.Some? <==> r.kind == Video && storage.Cloud?)
    ensures r.Stored? && storage.Disk? ==>
              r.storage == LocalStorage && r.src == "/uploads/" + r.fileName && r.size == f.size
    ensures Validate(f).Ok? && storage.Cloud? ==>
      match storage.upload(f, Validate(f).value)
      case Err(message) => r == Failed(f.name, StorageFailed(message))
      case Ok(asset) =>
        && r.Stored? && r.kind == Validate(f).value && r.storage == CloudStorage
        && r.fileName == asset.publicId && r.src == asset.secureUrl && r.size == asset.bytes
        && r.width == NonZero(asset.width) && r.height == NonZero(asset.height)
        && r.duration == NonZero(asset.duration)
        && r.thumbnail == (if r.kind == Video then Some(VideoThumbnail(asset.secureUrl)) else None)
    ensures Validate(f).Ok? && storage.Disk? ==>
      var fileName := LocalFileName(f, storage.clock(index), storage.token(index));
      match storage.write(fileName)
      case Some(message) => r == Failed(f.name, StorageFailed(message))
      case None =>
        r == Stored(f.name, fileName, "/uploads/" + fileName, Validate(f).value, f.size, f.mimeType,
                    None, None, None, None, LocalStorage)
  {
    match Validate(f)
    case Err(e) => Failed(f.name, e)
    case Ok(kind) =>
      match storage
      case Cloud(upload) =>
        (match upload(f, kind)
         case Err(message) => Failed(f.name, StorageFailed(message))
         case Ok(asset) =>
           Stored(f.name, asset.publicId, asset.secureUrl, kind, asset.bytes, f.mimeType,
                  NonZero(asset.width), NonZero(asset.height), NonZero(asset.duration),
                  if kind == Video then Some(VideoThumbnail(asset.secureUrl)) else None,
                  CloudStorage))
      case Disk(clock, token, write) =>
        var fileName := LocalFileName(f, clock(index), token(index));
        match write(fileName)
        case Some(message) => Failed(f.name, StorageFailed(message))
        case None =>
          Stored(f.name, fileName, "/uploads/" + fileName, kind, f.size, f.mimeType,
                 None, None, None, None, LocalStorage)
  }

  /** The `for` loop: one result per input file, in input order; a failure does not stop it. */
  method ProcessFiles(files: seq<File>, storage: Storage) returns (results: seq<FileResult>)
    ensures |results| == |files|
    ensures forall i :: 0 <= i < |files| ==> results[i] == ProcessOne(files[i], i, storage)
  {
    results := [];
    for i := 0 to |files|
      invariant |results| == i
      invariant forall k :: 0 <= k < i ==> results[k] == ProcessOne(files[k], k, storage)
    {
      results := results + [ProcessOne(files[i], i, storage)];
    }
  }

  /** `results.filter(r => r.success)`. */
  function Successes(results: seq<FileResult>): (s: seq<FileResult>)
    ensures |s| <= |results|
    ensures forall k :: 0 <= k < |s| ==> s[k].Stored? && s[k] in results
    ensures forall r :: r in results && r.Stored? ==> r in s
  {
    if results == [] then []
    else (if results[0].Stored? then [results[0]] else []) + Successes(results[1..])
  }

  /** `results.filter(r => !r.success)`. */
  function Failures(results: seq<FileResult>): (s: seq<FileResult>)
    ensures |s| <= |results|
    ensures forall k :: 0 <= k < |s| ==> s[k].Failed? && s[k] in results
    ensures forall r :: r in results && r.Failed? ==> r in s
  {
    if results == [] then []
    else (if results[0].Failed? then [results[0]] else []) + Failures(results[1..])
  }

  /** `results.filter(r => r.success)` and its complement keep the results in input order. */
  lemma {:induction false} PartitionFilters(results: seq<FileResult>)
    ensures Successes(results) == Filter(results, (r: FileResult) => r.Stored?)
    ensures Failures(results) == Filter(results, (r: FileResult) => r.Failed?)
  {
    if results != [] {
      PartitionFilters(results[1..]);
    }
  }

  /** The two filters split the results: every entry lands in exactly one of them. */
  lemma {:induction false} PartitionSizes(results: seq<FileResult>)
    ensures multiset(Successes(results)) + multiset(Failures(results)) == multiset(results)
    ensures |Successes(results)| + |Failures(results)| == |results|
  {
    if results != [] {
      PartitionSizes(results[1..]);
      assert results == [results[0]] + results[1..];
    }
  }

  /** An entry of a failed upload as the warnings show it: `<name>: <error>`. */
  datatype Warning = Warning(name: string, error: FileError)

  function Warnings(failed: seq<FileResult>): (w: seq<Warning>)
    requires forall k :: 0 <= k < |failed| ==> failed[k].Failed?
    ensures |w| == |failed|
    ensures forall k :: 0 <= k < |w| ==> w[k] == Warning(failed[k].originalName, failed[k].error)
  {
    seq(|failed|, k requires 0 <= k < |failed| => Warning(failed[k].originalName, failed[k].error))
  }

  function Details(failed: seq<FileResult>): (d: seq<FileError>)
    requires forall k :: 0 <= k < |failed| ==> failed[k].Failed?
    ensures |d| == |failed|
    ensures forall k :: 0 <= k < |d| ==> d[k] == failed[k].error
  {
    seq(|failed|, k requires 0 <= k < |failed| => failed[k].error)
  }

  /** The multipart request: the `files` entries and the single `file` entry, if any. */
  datatype Form = Form(files: seq<File>, single: Option<File>)

  datatype Response =
    | NoFiles                                                            // 400
    | ServerError                                                        // 500: the form did not parse or the upload folder could not be made
    | AllFailed(details: seq<FileError>, failedFiles: seq<FileResult>)    // 400
    | Uploaded(files: seq<FileResult>, count: nat, storage: StorageType,
               warnings: Option<seq<Warning>>)                           // 200

  function StatusCode(r: Response): int {
    match r
    case NoFiles => 400
    case ServerError => 500
    case AllFailed(_, _) => 400
    case Uploaded(_, _, _, _) => 200
  }

  /** A single `file` entry wins and `files` is then ignored. */
  function FilesToProcess(form: Form): (fs: seq<File>)
    ensures form.single.Some? ==> fs == [form.single.value]
    ensures form.single.None? ==> fs == form.files
  {
    if form.single.Some? then [form.single.value] else form.files
  }

  /**
   * The answer built from the results: 400 with one detail per file when no
   * file was stored; otherwise exactly the stored entries in order, their
   * count, and warnings present iff some file failed, one per failure.
   */
  function Respond(results: seq<FileResult>, storage: StorageType): (r: Response)
    ensures Successes(results) == [] ==>
              r == AllFailed(Details(Failures(results)), Failures(results)) &&
              |r.details| == |results|
    ensures Successes(results) != [] ==>
              r.Uploaded? && r.files == Successes(results) && r.count == |r.files| &&
              (r.warnings.Some? <==> Failures(results) != []) &&
              (r.warnings.Some? ==> |r.warnings.value| == |results| - r.count) &&
              r.warnings == (if Failures(results) != [] then Some(Warnings(Failures(results))) else None)
  {
    var ok := Successes(results);
    var failed := Failures(results);
    PartitionSizes(results);
    if ok == [] then AllFailed(Details(failed), failed)
    else Uploaded(ok, |ok|, storage,
                  if failed != [] then Some(Warnings(failed)) else None)
  }

  /**
   * `POST /api/upload`: the files go to the CDN when it is available and to
   * the local disk otherwise, and the answer names the storage used.
   * `parsed` is `None` when reading the multipart form throws.
   */
  method Post(parsed: Option<Form>, config: CdnConfig, backends: Backends, uploadDirReady: bool)
    returns (resp: Response)
    ensures parsed.None? ==> resp == ServerError
    ensures parsed.Some? && FilesToProcess(parsed.value) == [] ==> resp == NoFiles
    ensures parsed.Some? && FilesToProcess(parsed.value) != [] && !uploadDirReady ==> resp == ServerError
    ensures parsed.Some? && FilesToProcess(parsed.value) != [] && uploadDirReady ==>
              var files := FilesToProcess(parsed.value);
              var storage := StorageFor(config, backends);
              exists results: seq<FileResult> ::
                && |results| == |files|
                && (forall i :: 0 <= i < |results| ==> results[i] == ProcessOne(files[i], i, storage))
                && resp == Respond(results, if CloudinaryAvailable(config) then CloudStorage else LocalStorage)
    ensures resp.Uploaded? ==> (resp.storage == CloudStorage <==> CloudinaryAvailable(config))
  {
    if parsed.None? {
      return ServerError;
    }
    var files := FilesToProcess(parsed.value);
    if files == [] {
      return NoFiles;
    }
    if !uploadDirReady {
      return ServerError;
    }
    var storage := StorageFor(config, backends);
    var results := ProcessFiles(files, storage);
    resp := Respond(results, if CloudinaryAvailable(config) then CloudStorage else LocalStorage);
  }

}
